=== FILE: README.md ===
# Film-title recognition in podscripter, in Dafny

podscripter turns a French podcast into a transcript and then looks for the
films the speakers talk about. This project models the title-recognition core
of `podscripter.py` and proves properties of it. Recognition runs in two
passes.

- **Lexical pass** (`__brute_match`). The pass walks the title corpus in order.
  It keeps a title when all three hold:
  - the title has more than two characters;
  - its case-folded text occurs in the case-folded original transcript;
  - it is not the reserved word "film".

  Each kept title is recorded as a candidate. A multi-word title is recorded
  lower-cased with its spaces turned into underscores; a single-word title is
  recorded as stored. Every word-bounded, case-insensitive occurrence of the
  title in the current text is then rewritten to the recorded form
  (`re.sub(r"\bT\b", R, text, flags=re.IGNORECASE)`).
- **Grammar pass** (`__fine_match`). The rewritten text is tagged, outside
  the model. Five French discourse patterns (MR1 to MR5) then run over the
  tokens. Each pattern reports the text of the token at a fixed offset, with
  underscores turned back into spaces (`__match_film`). The reports are
  concatenated in rule order and de-duplicated stably
  (`list(dict.fromkeys(...))`). A text is reported exactly when it is the slot
  text of some match of some rule (`Grammar.FineMatchIsMatchedSlots`).

Modules, one per file:

| file | module | models |
|---|---|---|
| `text.dfy` | `Text` | case folding, `\w`, `isspace`/`split`, character replacement, substring containment |
| `word_sub.dfy` | `WordSub` | `re.sub` of a literal title between `\b` anchors, `IGNORECASE`, non-overlapping, left to right |
| `lexical.dfy` | `Lexical` | `__brute_match` |
| `matcher.dfy` | `Matcher` | the part of spaCy's rule `Matcher` the patterns use, and `__match_film` |
| `aggregation.dfy` | `Aggregation` | `list(dict.fromkeys(xs))` |
| `fine_match.dfy` | `Grammar` | the five rules, `__fine_match`, and the `parse` pipeline |

The model follows the code as written. Four behaviours a reader might not expect:

- **Detection is not whole-word.** `text_title_casefold in transcribed_text_casefolded`
  is plain substring containment. A title embedded in a longer word ("ami" in
  "amitié") is therefore recorded as a candidate, although the word-bounded
  rewrite does not touch it there. See `Lexical.EmbeddedTitleDetected`.
- **Single-word titles are rewritten too.** Their replacement is the title as
  stored, so each occurrence takes the stored capitalisation. See
  `Lexical.SingleWordTakesStoredCasing`; `Lexical.RewritePreservesSkeleton`
  bounds what any rewrite may change.
- **Candidates are not de-duplicated.** Each passing title adds one entry, and
  duplicates collapse only in the final aggregation. See
  `Lexical.ScanRecordsKeptTitles`.
- **Detection ignores earlier rewrites.** It always looks at the case-folded
  *original* transcript, while each rewrite works on the text left by the
  previous ones.

Observation: the pattern test `{"LOWER": {"IN": rs_string}}` compares a
token's lower-cased text with the candidate strings as recorded. A
single-word title stored with a capital ("Solange") is recorded as stored, so
no token's `LOWER` can equal it (`Grammar.StoredCapitalNeverMatches`). Such a
title never reaches the grammar rules: as the only candidate it yields an
empty result (`Grammar.StoredCapitalReportsNothing`).

Simplifications: case folding covers ASCII and Latin-1 capitals and the
French `Œ` and `Ÿ`, word
characters cover Latin-1 and Latin Extended-A/B, and the titles that pass the
filter are required to be free of the regular-expression characters that can
change a pattern's meaning (titles
that fail it may hold anything). "## Left out" lists these and the rest.

## Model

| member | source | states |
|---|---|---|
| Text.FoldStr | podscripter.py:262-267 | folding maps each character on its own and keeps the length, and every character of the result is already folded, as `casefold()` leaves a folded string alone |
| Text.FoldStrIdempotent | podscripter.py:262-267 | folding a folded string gives it back unchanged |
| Text.FoldKeepsWordChars | podscripter.py:262-283 | folding neither creates nor destroys word characters, spaces or underscores, and folding twice equals folding once |
| Text.WordCount | podscripter.py:276 | the number of words `split()` yields: the count of word starts; more than one word exactly when whitespace separates two non-whitespace characters, one direction each in `Lexical.MultiWordHasSpace` and `Lexical.SeparatedWordsCount` |
| Text.ReplaceChar | podscripter.py:277 | `str.replace` of one character: every occurrence of the old character becomes the new one, nothing else moves, and with two distinct characters none of the old one is left |
| Text.ReplaceCharRoundTrip | podscripter.py:277 | replacing a character by one absent from the text and then back restores the text, as unjoining does for a joined title |
| Text.Unjoin | podscripter.py:241 | the extracted text keeps its length and contains no underscore |
| WordSub.SubWithoutMatch | podscripter.py:283 | with no word-bounded occurrence of the title, the rewrite returns the text unchanged |
| WordSub.SubOnlyRewritesOccurrences | podscripter.py:283 | with a same-length replacement, the output is as long as the input and each character is either the input's own or the replacement's character inside a word-bounded case-insensitive occurrence |
| WordSub.SubIsFaithful | podscripter.py:283 | the whole rewritten text is faithful: each character is the input's own or the replacement's inside an occurrence |
| WordSub.ReplacedStep | podscripter.py:283 | writing the replacement over an occurrence keeps every output character either the input's own or the replacement's character inside an occurrence |
| WordSub.CopiedStep | podscripter.py:283 | copying the input character where no occurrence starts keeps the same property |
| WordSub.RewrittenAtOffset | podscripter.py:283 | a rewritten character is the replacement's character at some offset of an occurrence, and the input character there equals the title's character at that offset up to case |
| WordSub.SubRewritesIsolatedOccurrence | podscripter.py:283 | an occurrence that no earlier occurrence overlaps is replaced in full by the replacement |
| WordSub.SubStepBefore | podscripter.py:283 | a scan step taken before an isolated occurrence moves forward but never past that occurrence |
| WordSub.IsolatedWordRun | podscripter.py:276-283 | a replacement of word characters holding an underscore, written over an isolated occurrence, leaves such a run in the output at that place |
| WordSub.SubFromLength | podscripter.py:283 | a same-length replacement keeps the length of the text |
| WordSub.NoMatchSplitsAWord | podscripter.py:283 | a `\b`-anchored occurrence never starts or ends between two word characters |
| WordSub.JoinedSpanUntouched | podscripter.py:283 | a run of word characters holding an underscore is left intact by the rewrite of any title without an underscore |
| WordSub.NoOccurrenceOverlapsSpan | podscripter.py:283 | an occurrence of an underscore-free title lies wholly before or wholly after such a joined run |
| WordSub.UnderscoreMatchesUnderscore | podscripter.py:283 | under `IGNORECASE` an underscore in the text matches only an underscore in the title |
| WordSub.SubFrom | podscripter.py:283 | definition of the left-to-right, non-overlapping `re.sub` scan from a position; characterised by `WordSub.SubOnlyRewritesOccurrences`, `WordSub.SubRewritesIsolatedOccurrence` and `WordSub.SubWithoutMatch` |
| WordSub.Sub | podscripter.py:283 | definition of `re.sub(r"\bT\b", R, text, flags=re.IGNORECASE)` for a literal title; characterised by `WordSub.SubIsFaithful`, `WordSub.SubRewritesIsolatedOccurrence` and `WordSub.SubFromLength` |
| Lexical.KeptFrom | podscripter.py:265-273 | the positions of exactly the titles passing the length, containment and reserved-word filter, in increasing order |
| Lexical.Keep | podscripter.py:271-273 | definition of the three-part filter: more than two characters, case-folded containment in the case-folded transcript, not reserved; characterised by `Lexical.KeptFrom` and `Lexical.ContainedTitleStillDetected` |
| Lexical.Recorded | podscripter.py:276-279 | the recorded form has the title's length; characterised by `Lexical.RecordedShape` and `Lexical.JoinUnjoinRoundTrip` |
| Lexical.ScanFrom | podscripter.py:265-283 | the loop keeps the length of the text; characterised by `Lexical.ScanRecordsKeptTitles`, `Lexical.ScanPreservesSkeleton` and `Lexical.JoinedTitleSurvives` |
| Lexical.IsReservedMeansListed | podscripter.py:258-259 | the reserved-word test holds exactly for the members of the exception list, whose only member is "film" |
| Lexical.ScanRecordsKeptTitles | podscripter.py:265-283 | the candidates are the recorded forms of the passing titles, in corpus order, one per passing title; with none, the text is returned unchanged |
| Lexical.RecordedAllStep | podscripter.py:271-281 | a passing title puts its recorded form ahead of the candidates of the titles after it |
| Lexical.KeptRecordedMembership | podscripter.py:265-281 | a string is a candidate exactly when it is the recorded form of some passing title |
| Lexical.KeptIsListed | podscripter.py:265-281 | the recorded form of every passing title is a candidate |
| Lexical.ListedIsKept | podscripter.py:265-281 | every candidate is the recorded form of a passing title |
| Lexical.BruteMatch | podscripter.py:250-285 | candidates are exactly the recorded forms of the passing titles, in order; the rewritten text has the original's length and each of its characters is the original's up to case or an underscore where the original has a space, never the reverse; no passing title means no candidates and an unchanged transcript |
| Lexical.RecordedShape | podscripter.py:276-279 | a single-word title is recorded as stored; a multi-word title is recorded without spaces and already lower-cased, and without any whitespace when its only whitespace is the space character |
| Lexical.JoinUnjoinRoundTrip | podscripter.py:276-277 | unjoining the recorded form of an underscore-free multi-word title gives the title lower-cased |
| Lexical.MultiWordHasSpace | podscripter.py:276 | a string that `split()` cuts into more than one word contains a whitespace character after its first position |
| Lexical.SeparatedWordsCount | podscripter.py:276 | whitespace between two non-whitespace characters makes `split()` yield more than one word |
| Lexical.WordStartWithin | podscripter.py:276 | a non-whitespace character belongs to a word starting no earlier than a given whitespace boundary |
| Lexical.WordStartCounts | podscripter.py:276 | each word start is counted by `split()` among the words before any later position |
| Lexical.JoinedFormIsWordRun | podscripter.py:276-277 | a multi-word title of word characters and spaces is recorded as a run of word characters holding an underscore |
| Lexical.RewritePreservesSkeleton | podscripter.py:276-283 | one title's rewrite changes only letter case and turns spaces of its occurrences into underscores, never an underscore into a space |
| Lexical.FaithfulKeepsSkeleton | podscripter.py:283 | any output whose characters are the input's own or rewritten ones agrees with the input up to case and space/underscore |
| Lexical.SingleWordTakesStoredCasing | podscripter.py:278-283 | a single-word title replaces an isolated occurrence, in whatever capitalisation, by the title as stored |
| Lexical.RewrittenCharSkeleton | podscripter.py:276-283 | a character written by the rewrite agrees with the input character it replaces up to case and space/underscore |
| Lexical.RecordedCharSkeleton | podscripter.py:276-279 | each character of the recorded form agrees with the title's character at that place up to case and space/underscore |
| Lexical.JoinedFromTrans | podscripter.py:265-283 | two successive rewrites that each only change case and turn spaces into underscores compose to one of the same kind |
| Lexical.FaithfulJoins | podscripter.py:283 | an output whose characters are the input's own or rewritten ones is the input with case changed and spaces turned into underscores |
| Lexical.RewrittenCharJoins | podscripter.py:276-283 | a rewritten character is the input's character up to case, or an underscore over a space |
| Lexical.RecordedCharJoins | podscripter.py:276-279 | each character of the recorded form is the matched text's character up to case, or an underscore where that character is a space |
| Lexical.ScanPreservesSkeleton | podscripter.py:265-283 | the whole loop changes only letter case and turns spaces into underscores, never the reverse |
| Lexical.DetectionIgnoresRewrites | podscripter.py:262-273 | the candidate list does not depend on the text being rewritten, only on the original transcript |
| Lexical.ContainedTitleStillDetected | podscripter.py:271-273 | a title contained in a passing title, and itself long enough and not reserved, also passes |
| Lexical.EmbeddedTitleDetected | podscripter.py:271-283 | a title glued to a following word character passes detection, yet the word-bounded rewrite cannot match it there |
| Lexical.FailingTitleIsInert | podscripter.py:265-283 | removing a title that fails the filter changes neither the candidates nor the rewritten text |
| Lexical.DropBefore | podscripter.py:265-283 | the loop over a list without a failing title agrees with the loop over the full list, from any earlier position |
| Lexical.DropAfter | podscripter.py:265-283 | past the removed title, the shortened list's loop equals the full list's loop one step later |
| Lexical.JoinedSpanSurvivesScan | podscripter.py:265-283 | a joined run of word characters survives every later underscore-free title, in detection and rewrite alike |
| Lexical.JoinedTitleSurvives | podscripter.py:276-283 | once a multi-word title is joined at an isolated occurrence, its joined form is still there in the final text |
| Lexical.JoinedRunSurvives | podscripter.py:265-283 | the joined run that a passing title's rewrite leaves reaches the final text unchanged |
| Matcher.EndingAt | podscripter.py:237 | the matching windows with a given end and a start below a bound, each once, by increasing start |
| Matcher.WindowsUpTo | podscripter.py:237 | the matching windows ending by a bound, each once, in completion order |
| Matcher.MatchWindows | podscripter.py:237 | every window the pattern matches in full, each once, in completion order (end, then start) |
| Matcher.Holds | podscripter.py:308-342 | definition of the attribute tests `LOWER`, `LOWER IN`, `POS`, `TEXT` and `LEMMA`; characterised per rule by `Grammar.MR1Shape` to `Grammar.MR5Shape` |
| Matcher.Accepts | podscripter.py:330-342 | definition of one token specification, `"!"` negating the test; characterised per rule by `Grammar.MR4Shape` and `Grammar.MR5Shape` |
| Matcher.Matches | podscripter.py:321-329 | definition of a pattern matching a whole window, `"?"` taking zero or one token; characterised per rule by `Grammar.MR3Shape` and `Grammar.MR3From1` to `Grammar.MR3From5` |
| Matcher.MatchPrefixAligned | podscripter.py:231-233 | when no specification up to an offset is optional, a match aligns each of them with the token at the same offset |
| Matcher.SlotLandsOnCandidate | podscripter.py:240-241 | the reported token lies inside the window and, for a rule reporting its candidate-tested token, is a candidate |
| Matcher.NoCandidatesNoMatch | podscripter.py:312 | a pattern with a `LOWER IN` specification matches nothing against an empty candidate list |
| Matcher.ExtractAll | podscripter.py:240-241 | one reported text per window, underscore-free, each the unjoined text of a candidate token; report k is tied to window k by `Matcher.ExtractAllAt` |
| Matcher.ExtractAllAt | podscripter.py:240-241 | report k is the text of the token at the rule's offset in window k, underscores turned into spaces |
| Matcher.Extract | podscripter.py:230-247 | one reported text per matching window, underscore-free, each the unjoined text of a candidate token; its contents are pinned down by `Matcher.ExtractIsSlots` |
| Matcher.ListedWindowsMatch | podscripter.py:237-241 | every window the matcher lists is a match, and the reports follow those windows one by one |
| Matcher.ExtractOnlySlots | podscripter.py:240-241 | every report is the slot text of some matched window |
| Matcher.ExtractHasSlots | podscripter.py:240-241 | the slot text of every matched window is reported |
| Matcher.SlotIsExtracted | podscripter.py:240-241 | a text that is the slot text of some match is reported |
| Matcher.ExtractIsSlots | podscripter.py:230-247 | a text is reported by `__match_film` exactly when it is the slot text of a match of the rule |
| Matcher.NoCandidatesNothingExtracted | podscripter.py:236-241 | with no candidates a rule reports nothing |
| Aggregation.FirstIndex | podscripter.py:372 | the first position holding an element |
| Aggregation.Dedup | podscripter.py:372 | the de-duplicated list has no repeats, the same elements, and is no longer than its input |
| Aggregation.DedupKeepsFirstOccurrenceOrder | podscripter.py:372 | the de-duplicated list orders its elements by their first occurrence in the input |
| Aggregation.DedupOfDistinct | podscripter.py:372 | a list without repeats is returned unchanged |
| Aggregation.DedupIdempotent | podscripter.py:372 | de-duplicating twice equals de-duplicating once |
| Aggregation.DedupUnique | podscripter.py:372 | any repeat-free list with the input's elements in first-occurrence order IS the de-duplication (reference characterisation of `dict.fromkeys`) |
| Aggregation.FirstIndexOfPrefix | podscripter.py:372 | an element's first position in a prefix is its first position in the whole list |
| Aggregation.FirstIndexUnique | podscripter.py:372 | a position holding an element with no earlier copy is its first position |
| Aggregation.LastOccurrenceIsLast | podscripter.py:372 | an element appearing only at the end of the input ends every first-occurrence-ordered list of the input's elements |
| Aggregation.EndsWithLast | podscripter.py:372 | an element found only at the end of the input is the last element of every first-occurrence-ordered list of the input's elements |
| Aggregation.TrimmedMembers | podscripter.py:372 | dropping that last element leaves exactly the other elements of the input |
| Aggregation.TrimmedOrdered | podscripter.py:372 | what remains is repeat-free and ordered by first occurrence in the input without its last element |
| Aggregation.Flatten | podscripter.py:309-342 | definition of appending the parts in turn, as the `extend` calls do; characterised by `Aggregation.FlattenHas` and `Aggregation.FlattenOnly` |
| Aggregation.FlattenHas | podscripter.py:309-342 | every element of every part is in the appended list |
| Aggregation.FlattenOnly | podscripter.py:309-342 | every element of the appended list comes from one of the parts |
| Grammar.RulesReportCandidateSlot | podscripter.py:308-342 | each of MR1 to MR5 reports its `LOWER IN` token, placed before any optional token |
| Grammar.MR1 | podscripter.py:308-313 | definition of MR1; characterised by `Grammar.MR1Shape` |
| Grammar.MR2 | podscripter.py:314-320 | definition of MR2; characterised by `Grammar.MR2Shape` |
| Grammar.MR3 | podscripter.py:321-329 | definition of MR3; characterised by `Grammar.MR3Shape` |
| Grammar.MR4 | podscripter.py:330-336 | definition of MR4; characterised by `Grammar.MR4Shape` |
| Grammar.MR5 | podscripter.py:337-342 | definition of MR5; characterised by `Grammar.MR5Shape` |
| Grammar.MR1Shape | podscripter.py:308-313 | MR1 matches exactly three tokens: "film", a candidate, a proper noun |
| Grammar.MR2Shape | podscripter.py:314-320 | MR2 matches exactly four tokens: a determiner, "film", a candidate, surface text "de" |
| Grammar.MR3Shape | podscripter.py:321-329 | MR3 matches an adjective and a candidate, then a noun with an optional determiner before and an optional adposition after, then "film": four to six tokens |
| Grammar.MR3From1 | podscripter.py:325-329 | MR3 without its adjective matches a candidate followed by one of the four tails |
| Grammar.MR3From2 | podscripter.py:326-329 | the part of MR3 after the candidate matches exactly the four tails: noun "film", determiner noun "film", noun adposition "film", determiner noun adposition "film" |
| Grammar.MR3From3 | podscripter.py:327-329 | from the noun on, MR3 matches a noun followed by "film" or by an adposition and "film" |
| Grammar.MR3From4 | podscripter.py:328-329 | from the optional adposition on, MR3 matches "film" alone or an adposition then "film" |
| Grammar.MR3From5 | podscripter.py:329 | the last specification of MR3 matches exactly one token whose lower-cased text is "film" |
| Grammar.MR4Shape | podscripter.py:330-336 | MR4 matches exactly four tokens: lemma "voir", a determiner, a candidate, a non-verb |
| Grammar.MR5Shape | podscripter.py:337-342 | MR5 matches exactly three tokens: lemma "voir", a candidate, a non-verb |
| Grammar.RuleOutputs | podscripter.py:306-342 | the rules' reports are underscore-free unjoined candidate tokens, and none with no candidates; that it is the rules' reports appended in order is `Grammar.RuleOutputsIsFlatten` |
| Grammar.PerRule | podscripter.py:309-342 | one part per rule, holding that rule's `__match_film` reports |
| Grammar.PerRuleStep | podscripter.py:309-342 | splitting off the first rule splits off its reports |
| Grammar.RuleOutputsIsFlatten | podscripter.py:306-342 | the concatenated reports are the rules' reports appended rule after rule |
| Grammar.AllRuleOutputs | podscripter.py:306-342 | the MR1 to MR5 report list holds only unjoined candidate tokens, and is empty with no candidates; its members are pinned down by `Grammar.FineMatchIsMatchedSlots` |
| Grammar.FineMatch | podscripter.py:288-372 | the result has no repeats, holds only unjoined candidate tokens, and is empty with no candidates; its members are pinned down by `Grammar.FineMatchIsMatchedSlots` |
| Grammar.ReportOfRule | podscripter.py:309-342 | rule k's part of the report list holds exactly the slot texts of rule k's matches |
| Grammar.FineMatchIsMatchedSlots | podscripter.py:306-372 | a text is in the report list, and in the final result, exactly when it is the slot text of a match of one of MR1 to MR5 |
| Grammar.MatchIsReported | podscripter.py:306-372 | the slot text of every match of every rule is in the final result |
| Grammar.FineMatchIsStableDedup | podscripter.py:372 | the result has the same titles as the concatenated reports, ordered by first report, and is stable under a second de-duplication |
| Grammar.JoinedTokenRecoversTitle | podscripter.py:241 | a token carrying a joined title has the recorded form as its `LOWER`, and unjoining it gives the title lower-cased |
| Grammar.StoredCapitalNeverMatches | podscripter.py:276-283 | a single-word title stored with a capital is a candidate no token's `LOWER` can equal |
| Grammar.StoredCapitalReportsNothing | podscripter.py:306-372 | with such a title as the only candidate, the grammar pass reports nothing, whatever the tokens |
| Grammar.Parse | podscripter.py:375-394 | the pipeline's result has no repeats; its contents are stated by `Grammar.ParseReportsDetectedTitles` and `Grammar.ParseReportsEveryMatch` |
| Grammar.ParseReportsDetectedTitles | podscripter.py:375-394 | every reported title is the unjoined text of a token whose lower-cased text is the recorded form of a title that passed the lexical filter; with no such title, nothing is reported |
| Grammar.ParseReportsEveryMatch | podscripter.py:375-394 | for every match of MR1 to MR5 in the tagged rewritten transcript, with the lexical candidates, the slot token's text with underscores turned into spaces is reported |

## Left out

- Audio conversion, transcription, RSS download, the IMDb dataset import,
  progress display and the PostgreSQL query (`__database_extraction`) are
  I/O. Titles arrive as a parameter, in any order. No property proved here
  needs the descending-length order the query produces.
- `parse` reads the transcript file and joins its lines with spaces. The
  model takes the joined transcript as its input.
- `preparse` (capitalising proper nouns) and `init.py` are outside the
  recognition core. `setup.py` is packaging.
- spaCy's French model (tokenisation, part-of-speech tags, lemmas) is an
  external service. `Grammar.Parse` receives it as the function parameter
  `tag`.
- The `Matcher` registry idiom (`add`/`remove` around each call) is state
  of the library. Each rule is modelled as a stateless pattern.
- The two debug prints in `__match_film` (podscripter.py:244-245), and the
  matched-text list they print, have no effect on the result.
- The commented-out rules after MR5 are not part of the program.
- A title that passes the filter and contains one of `. ^ $ * + ? { [ \ | ( )`
  is excluded by the precondition `KeptAreLiteral` of `Lexical.BruteMatch`,
  `Grammar.Parse` and the lemmas about them. The source interpolates the title
  into its pattern without escaping. Each of these characters except `{` can
  change the pattern's meaning or make `re` raise an error, and the model's
  rewrite is always literal. `{` is excluded conservatively: it is literal
  unless it opens a count such as `{2}`. `]` and `}` are literal in every
  title and are allowed. Titles that fail the filter never reach `re.sub` and
  are unrestricted.
- Text.FoldStr: covers ASCII and Latin-1 capitals and the French `Œ` and
  `Ÿ` only. Other case folds (the rest of Latin Extended-A and -B, Greek,
  Cyrillic) are not modelled. The two Latin-1 letters that `casefold()`
  folds further are left as they are (`ß` to `ss`, `µ` to Greek `μ`),
  because `casefold()` and `lower()` differ there and the model uses one
  folding for both.
- Text.FoldKeepsWordChars: `\w` is modelled up to U+024F. Word characters
  beyond Latin Extended-B count as non-word.
- Grammar.Parse: its own contract states only that its result has no
  repeats. What the result contains is stated by
  `Grammar.ParseReportsDetectedTitles` and `Grammar.ParseReportsEveryMatch`,
  because both directions quantify over the tokens of an arbitrary tagger.
- The order in which spaCy reports matches of one pattern is taken as
  completion order (end, then start). Only the order of the final list
  depends on it. Its contents do not.

=== FILE: aggregation.dfy ===
/**
 Building the report list: `extend` appends each part in turn. Stable
 de-duplication, `list(dict.fromkeys(xs))`: a dictionary keeps its keys in
 insertion order and inserting a key again does not move it, so the result
 lists every distinct element once, at the place of its first occurrence.
 */
module Aggregation {

  predicate NoDup<T(==, !new)>(xs: seq<T>)
  {
    forall i, j :: 0 <= i < j < |xs| ==> xs[i] != xs[j]
  }

  /** Index of the first occurrence of `x` in `xs`. */
  function FirstIndex<T(==, !new)>(xs: seq<T>, x: T): (k: nat)
    requires x in xs
    ensures k < |xs| && xs[k] == x
    ensures forall i :: 0 <= i < k ==> xs[i] != x
  {
    if xs[0] == x then 0 else 1 + FirstIndex(xs[1..], x)
  }

  /** Inserts the elements left to right, skipping those already present. */
  function Dedup<T(==, !new)>(xs: seq<T>): (r: seq<T>)
    ensures NoDup(r)
    ensures forall x :: x in r <==> x in xs
    ensures |r| <= |xs|
  {
    if |xs| == 0 then []
    else
      var d := Dedup(xs[..|xs| - 1]);
      var x := xs[|xs| - 1];
      assert forall y :: y in xs <==> y in xs[..|xs| - 1] || y == x by {
        assert xs == xs[..|xs| - 1] + [x];
      }
      if x in d then d else d + [x]
  }

  /** Every element of `r` occurs in `xs`, and `r` lists them in the order of
      their first occurrence in `xs`. */
  ghost predicate InFirstOccurrenceOrder<T(!new)>(xs: seq<T>, r: seq<T>)
  {
    && (forall y :: y in r ==> y in xs)
    && (forall i, j :: 0 <= i < j < |r| ==> FirstIndex(xs, r[i]) < FirstIndex(xs, r[j]))
  }

  /** Ranks of elements of a prefix are the same in the whole list. */
  lemma FirstIndexOfPrefix<T(!new)>(xs: seq<T>, n: nat)
    requires n <= |xs|
    ensures forall y :: y in xs[..n] ==> y in xs && FirstIndex(xs, y) == FirstIndex(xs[..n], y)
  {
    forall y | y in xs[..n]
      ensures y in xs && FirstIndex(xs, y) == FirstIndex(xs[..n], y)
    {
      var k := FirstIndex(xs[..n], y);
      assert xs[k] == y;
      FirstIndexUnique(xs, y, k);
    }
  }

  /** The first occurrence is the only index that holds `x` with no earlier copy. */
  lemma FirstIndexUnique<T(!new)>(xs: seq<T>, x: T, k: nat)
    requires k < |xs| && xs[k] == x
    requires forall i :: 0 <= i < k ==> xs[i] != x
    ensures FirstIndex(xs, x) == k
  {
  }

  /** The result is ordered by first occurrence in the input. */
  lemma {:induction false} DedupKeepsFirstOccurrenceOrder<T(!new)>(xs: seq<T>)
    ensures InFirstOccurrenceOrder(xs, Dedup(xs))
  {
    if |xs| > 0 {
      var n := |xs| - 1;
      var init, x := xs[..n], xs[n];
      var d := Dedup(init);
      DedupKeepsFirstOccurrenceOrder(init);
      FirstIndexOfPrefix(xs, n);
      var r := Dedup(xs);
      if x !in d {
        assert x !in init;
        FirstIndexUnique(xs, x, n);
      }
      forall i, j | 0 <= i < j < |r|
        ensures FirstIndex(xs, r[i]) < FirstIndex(xs, r[j])
      {
        assert r[i] == d[i] && d[i] in init;
        if j < |d| {
          assert r[j] == d[j] && d[j] in init;
          assert FirstIndex(init, d[i]) < FirstIndex(init, d[j]);
        } else {
          assert r[j] == x && FirstIndex(xs, x) == n;
          assert FirstIndex(init, d[i]) < n;
        }
      }
    }
  }

  /** A list without duplicates is its own de-duplication. */
  lemma {:induction false} DedupOfDistinct<T(!new)>(xs: seq<T>)
    requires NoDup(xs)
    ensures Dedup(xs) == xs
  {
    if |xs| > 0 {
      var n := |xs| - 1;
      assert NoDup(xs[..n]);
      DedupOfDistinct(xs[..n]);
      assert xs[n] !in xs[..n];
      assert xs == xs[..n] + [xs[n]];
    }
  }

  /** Running the aggregation a second time changes nothing. */
  lemma DedupIdempotent<T(!new)>(xs: seq<T>)
    ensures Dedup(Dedup(xs)) == Dedup(xs)
  {
    DedupOfDistinct(Dedup(xs));
  }

  /** Any duplicate-free list with the same elements, ordered by first
      occurrence, IS the de-duplication: this is the reference description of
      `dict.fromkeys`, and `Dedup` meets it. */
  lemma {:induction false} DedupUnique<T(!new)>(xs: seq<T>, r: seq<T>)
    requires NoDup(r)
    requires forall x :: x in r <==> x in xs
    requires InFirstOccurrenceOrder(xs, r)
    ensures r == Dedup(xs)
  {
    if |xs| == 0 {
      NoMembersMeansEmpty(r);
    } else {
      var n := |xs| - 1;
      var init, x := xs[..n], xs[n];
      assert xs == init + [x];
      FirstIndexOfPrefix(xs, n);
      if x in init {
        assert forall y :: y in r <==> y in init;
        DedupUnique(init, r);
      } else {
        var r' := LastOccurrenceIsLast(xs, r);
        assert forall y :: y in r' <==> y in init;
        DedupUnique(init, r');
      }
    }
  }

  /** When the last element of `xs` occurs nowhere before, it has the highest
      rank, so an ordered list holding it ends with it. */
  lemma LastOccurrenceIsLast<T(!new)>(xs: seq<T>, r: seq<T>) returns (r': seq<T>)
    requires |xs| > 0 && xs[|xs| - 1] !in xs[..|xs| - 1]
    requires NoDup(r)
    requires forall x :: x in r <==> x in xs
    requires InFirstOccurrenceOrder(xs, r)
    ensures r == r' + [xs[|xs| - 1]]
    ensures NoDup(r') && InFirstOccurrenceOrder(xs[..|xs| - 1], r')
    ensures forall y :: y in r' <==> y in xs && y != xs[|xs| - 1]
  {
    var n := |xs| - 1;
    var x := xs[n];
    EndsWithLast(xs, r);
    r' := r[..|r| - 1];
    assert r == r' + [x];
    TrimmedMembers(xs, r, r');
    TrimmedOrdered(xs, r, r');
  }

  lemma EndsWithLast<T(!new)>(xs: seq<T>, r: seq<T>)
    requires |xs| > 0 && xs[|xs| - 1] !in xs[..|xs| - 1]
    requires forall x :: x in r <==> x in xs
    requires InFirstOccurrenceOrder(xs, r)
    ensures |r| > 0 && r[|r| - 1] == xs[|xs| - 1]
  {
    var n := |xs| - 1;
    var x := xs[n];
    FirstIndexUnique(xs, x, n);
    assert x in r;
    var m :| 0 <= m < |r| && r[m] == x;
    var last := |r| - 1;
    assert FirstIndex(xs, r[m]) <= FirstIndex(xs, r[last]);
  }

  lemma TrimmedMembers<T(!new)>(xs: seq<T>, r: seq<T>, r': seq<T>)
    requires |xs| > 0 && NoDup(r)
    requires forall x :: x in r <==> x in xs
    requires r == r' + [xs[|xs| - 1]]
    ensures forall y :: y in r' <==> y in xs && y != xs[|xs| - 1]
  {
    var x := xs[|xs| - 1];
    var last := |r| - 1;
    forall y | y in xs && y != x
      ensures y in r'
    {
      var k :| 0 <= k < |r| && r[k] == y;
      assert k != last;
    }
    forall y | y in r' ensures y in xs && y != x {
      var k :| 0 <= k < |r'| && r'[k] == y;
      assert r[k] == y && r[last] == x && k < last;
      assert r[k] != r[last];
      assert y in r;
    }
  }

  lemma TrimmedOrdered<T(!new)>(xs: seq<T>, r: seq<T>, r': seq<T>)
    requires |xs| > 0 && NoDup(r)
    requires InFirstOccurrenceOrder(xs, r)
    requires r == r' + [xs[|xs| - 1]]
    requires forall y :: y in r' <==> y in xs && y != xs[|xs| - 1]
    ensures NoDup(r') && InFirstOccurrenceOrder(xs[..|xs| - 1], r')
  {
    var n := |xs| - 1;
    var x := xs[n];
    forall y | y in r' ensures y in xs[..n] {
      assert xs == xs[..n] + [x];
    }
    assert NoDup(r') by {
      forall i, j | 0 <= i < j < |r'| ensures r'[i] != r'[j] {
        assert r'[i] == r[i] && r'[j] == r[j];
      }
    }
    FirstIndexOfPrefix(xs, n);
    forall i, j | 0 <= i < j < |r'|
      ensures FirstIndex(xs[..n], r'[i]) < FirstIndex(xs[..n], r'[j])
    {
      assert r'[i] == r[i] && r'[j] == r[j];
      assert r'[i] in xs[..n] && r'[j] in xs[..n];
    }
  }

  /** A list with no members is empty. */
  lemma NoMembersMeansEmpty<T>(r: seq<T>)
    ensures (forall y :: y !in r) ==> r == []
  {
    if r != [] {
      assert r[0] in r;
    }
  }

  /** The parts appended one after the other, as a chain of `extend` calls
      builds them. */
  function Flatten<T>(parts: seq<seq<T>>): (r: seq<T>)
    ensures |parts| > 0 ==> |r| >= |parts[0]|
  {
    if |parts| == 0 then [] else parts[0] + Flatten(parts[1..])
  }

  /** Every element of every part is in the flattened list. */
  lemma {:induction false} FlattenHas<T>(parts: seq<seq<T>>, k: nat, x: T)
    requires k < |parts| && x in parts[k]
    ensures x in Flatten(parts)
    decreases k
  {
    if k == 0 {
      var i :| 0 <= i < |parts[0]| && parts[0][i] == x;
      assert Flatten(parts)[i] == x;
    } else {
      assert parts[1..][k - 1] == parts[k];
      FlattenHas(parts[1..], k - 1, x);
      var rest := Flatten(parts[1..]);
      var i :| 0 <= i < |rest| && rest[i] == x;
      assert Flatten(parts)[|parts[0]| + i] == x;
    }
  }

  /** Every element of the flattened list comes from one of the parts, the
      one at position `k`. */
  lemma {:induction false} FlattenOnly<T>(parts: seq<seq<T>>, x: T) returns (k: nat)
    requires x in Flatten(parts)
    ensures k < |parts| && x in parts[k]
    decreases |parts|
  {
    if x in parts[0] {
      k := 0;
    } else {
      assert x in Flatten(parts[1..]);
      var k' := FlattenOnly(parts[1..], x);
      assert parts[1..][k'] == parts[k' + 1];
      k := k' + 1;
    }
  }
}

=== FILE: fine_match.dfy ===
/**
 The grammar pass (`__fine_match`) and the whole parse: the five French
 discourse patterns that introduce a film title, the concatenation of their
 reported texts in rule order, and the stable de-duplication of that list.
 */
module Grammar {
  import opened Text
  import opened Aggregation
  import opened Matcher
  import opened Lexical

  /** MR1, "film <title> <proper noun>". */
  const MR1: Rule := Rule([
    TokenSpec(LowerIs("film"), One),
    TokenSpec(LowerInCandidates, One),
    TokenSpec(PosIs(PROPN), One)], 1)

  /** MR2, "<determiner> film <title> de". */
  const MR2: Rule := Rule([
    TokenSpec(PosIs(DET), One),
    TokenSpec(LowerIs("film"), One),
    TokenSpec(LowerInCandidates, One),
    TokenSpec(TextIs("de"), One)], 2)

  /** MR3, "<adjective> <title> <determiner>? <noun> <adposition>? film". */
  const MR3: Rule := Rule([
    TokenSpec(PosIs(ADJ), One),
    TokenSpec(LowerInCandidates, One),
    TokenSpec(PosIs(DET), Optional),
    TokenSpec(PosIs(NOUN), One),
    TokenSpec(PosIs(ADP), Optional),
    TokenSpec(LowerIs("film"), One)], 1)

  /** MR4, "<voir> <determiner> <title> <anything but a verb>". */
  const MR4: Rule := Rule([
    TokenSpec(LemmaIs("voir"), One),
    TokenSpec(PosIs(DET), One),
    TokenSpec(LowerInCandidates, One),
    TokenSpec(PosIs(VERB), Negated)], 2)

  /** MR5, "<voir> <title> <anything but a verb>". */
  const MR5: Rule := Rule([
    TokenSpec(LemmaIs("voir"), One),
    TokenSpec(LowerInCandidates, One),
    TokenSpec(PosIs(VERB), Negated)], 1)

  const Rules: seq<Rule> := [MR1, MR2, MR3, MR4, MR5]

  /** Every rule of the list reports its candidate-tested token. */
  predicate AllReportCandidates(rules: seq<Rule>)
  {
    forall k :: 0 <= k < |rules| ==> SlotIsCandidate(rules[k])
  }

  /** Each rule reports the token tested against the candidate list, and
      that token comes before any optional one. */
  lemma RulesReportCandidateSlot()
    ensures AllReportCandidates(Rules)
  {
    assert SlotIsCandidate(MR1);
    assert SlotIsCandidate(MR2);
    assert SlotIsCandidate(MR3);
    assert SlotIsCandidate(MR4);
    assert SlotIsCandidate(MR5);
  }

  /** The rule outputs concatenated in declaration order. */
  function RuleOutputs(rules: seq<Rule>, toks: seq<Token>, candidates: seq<string>): (r: seq<string>)
    requires AllReportCandidates(rules)
    ensures forall x :: x in r ==> '_' !in x && FromCandidateToken(x, toks, candidates)
    ensures candidates == [] ==> r == []
  {
    if |rules| == 0 then []
    else
      assert SlotIsCandidate(rules[0]);
      var here := Extract(rules[0], toks, candidates);
      assert candidates == [] ==> here == [] by {
        if candidates == [] { NoCandidatesNothingExtracted(rules[0], toks); }
      }
      here + RuleOutputs(rules[1..], toks, candidates)
  }

  /** The `match_list` of `__fine_match` before de-duplication: the MR1..MR5
      reports, rule after rule. */
  function AllRuleOutputs(toks: seq<Token>, candidates: seq<string>): (r: seq<string>)
    ensures forall x :: x in r ==> '_' !in x && FromCandidateToken(x, toks, candidates)
    ensures candidates == [] ==> r == []
  {
    RulesReportCandidateSlot();
    RuleOutputs(Rules, toks, candidates)
  }

  /** `__fine_match`: the reported titles, each once, in the order of their
      first report. */
  function FineMatch(candidates: seq<string>, toks: seq<Token>): (r: seq<string>)
    ensures NoDup(r)
    ensures forall x :: x in r ==> '_' !in x && FromCandidateToken(x, toks, candidates)
    ensures candidates == [] ==> r == []
  {
    Dedup(AllRuleOutputs(toks, candidates))
  }

  /** `parse()`: the lexical pass, then tagging of the rewritten text by the
      external tagger `tag`, then the grammar pass over the candidates. */
  function Parse(titles: seq<TitleRecord>, transcript: string, tag: string -> seq<Token>): (r: seq<string>)
    requires KeptAreLiteral(titles, FoldStr(transcript))
    ensures NoDup(r)
  {
    var lex := BruteMatch(titles, transcript);
    FineMatch(lex.candidates, tag(lex.text))
  }

  /** The rules after the first still report their candidate tokens. */
  lemma TailReportsCandidates(rules: seq<Rule>)
    requires AllReportCandidates(rules) && |rules| > 0
    ensures ValidRule(rules[0]) && AllReportCandidates(rules[1..])
  {
    assert SlotIsCandidate(rules[0]);
    forall k | 0 <= k < |rules[1..]| ensures SlotIsCandidate(rules[1..][k]) {
      assert rules[1..][k] == rules[k + 1];
    }
  }

  /** The reports of each rule of the list, rule by rule. */
  function PerRule(rules: seq<Rule>, toks: seq<Token>, candidates: seq<string>): (ps: seq<seq<string>>)
    requires AllReportCandidates(rules)
    ensures |ps| == |rules|
  {
    seq(|rules|, k requires 0 <= k < |rules| => Extract(rules[k], toks, candidates))
  }

  /** The concatenation is the rules' reports appended rule after rule, as
      the successive `match_list.extend` calls build it. */
  lemma {:induction false} RuleOutputsIsFlatten(rules: seq<Rule>, toks: seq<Token>, candidates: seq<string>)
    requires AllReportCandidates(rules)
    ensures RuleOutputs(rules, toks, candidates) == Flatten(PerRule(rules, toks, candidates))
    decreases |rules|
  {
    if |rules| > 0 {
      TailReportsCandidates(rules);
      RuleOutputsIsFlatten(rules[1..], toks, candidates);
      PerRuleStep(rules, toks, candidates);
    }
  }

  /** Splitting off the first rule splits off its reports. */
  lemma PerRuleStep(rules: seq<Rule>, toks: seq<Token>, candidates: seq<string>)
    requires AllReportCandidates(rules) && |rules| > 0
    ensures ValidRule(rules[0]) && AllReportCandidates(rules[1..])
    ensures PerRule(rules, toks, candidates)
      == [Extract(rules[0], toks, candidates)] + PerRule(rules[1..], toks, candidates)
  {
    TailReportsCandidates(rules);
    var ps := PerRule(rules, toks, candidates);
    var ps' := [Extract(rules[0], toks, candidates)] + PerRule(rules[1..], toks, candidates);
    forall k | 0 <= k < |ps| ensures ps[k] == ps'[k] {
      if k > 0 {
        assert rules[1..][k - 1] == rules[k];
      }
    }
  }

  /** `x` is reported by one of MR1..MR5 for one of its matches. */
  ghost predicate MatchedSlot(toks: seq<Token>, candidates: seq<string>, x: string)
  {
    exists k :: 0 <= k < |Rules| && SlotOf(Rules[k], toks, candidates, x)
  }

  /** `__fine_match` reports exactly the slot texts of the matches of MR1 to
      MR5: nothing else, and the slot text of every match of every rule. The
      concatenated list before de-duplication has the same members. */
  lemma FineMatchIsMatchedSlots(candidates: seq<string>, toks: seq<Token>, x: string)
    ensures x in AllRuleOutputs(toks, candidates) <==> MatchedSlot(toks, candidates, x)
    ensures x in FineMatch(candidates, toks) <==> MatchedSlot(toks, candidates, x)
  {
    RulesReportCandidateSlot();
    RuleOutputsIsFlatten(Rules, toks, candidates);
    var ps := PerRule(Rules, toks, candidates);
    if x in AllRuleOutputs(toks, candidates) {
      var k := FlattenOnly(ps, x);
      ReportOfRule(toks, candidates, k, x);
    }
    if MatchedSlot(toks, candidates, x) {
      var k :| 0 <= k < |Rules| && SlotOf(Rules[k], toks, candidates, x);
      ReportOfRule(toks, candidates, k, x);
      FlattenHas(ps, k, x);
    }
  }

  /** Rule `k`'s part of the report list holds exactly its slot texts. */
  lemma ReportOfRule(toks: seq<Token>, candidates: seq<string>, k: nat, x: string)
    requires k < |Rules|
    ensures AllReportCandidates(Rules)
    ensures x in PerRule(Rules, toks, candidates)[k] <==> SlotOf(Rules[k], toks, candidates, x)
  {
    RulesReportCandidateSlot();
    assert SlotIsCandidate(Rules[k]);
    ExtractIsSlots(Rules[k], toks, candidates, x);
  }

  /** MR1 matches exactly the three-token windows "film", candidate, proper noun. */
  lemma MR1Shape(w: seq<Token>, c: seq<string>)
    ensures Matches(MR1.specs, w, c) <==>
      |w| == 3 && w[0].Lower() == "film" && w[1].Lower() in c && w[2].pos == PROPN
  {
    var sp := MR1.specs;
    assert sp[1..][1..][1..] == [];
  }

  /** MR2 matches exactly the four-token windows determiner, "film",
      candidate, "de" (the last compared on the surface text). */
  lemma MR2Shape(w: seq<Token>, c: seq<string>)
    ensures Matches(MR2.specs, w, c) <==>
      |w| == 4 && w[0].pos == DET && w[1].Lower() == "film" && w[2].Lower() in c && w[3].text == "de"
  {
    var sp := MR2.specs;
    assert sp[1..][1..][1..][1..] == [];
  }

  /** MR4 matches exactly the four-token windows with lemma "voir",
      determiner, candidate, and a fourth token that is not a verb. */
  lemma MR4Shape(w: seq<Token>, c: seq<string>)
    ensures Matches(MR4.specs, w, c) <==>
      |w| == 4 && w[0].lemmaForm == "voir" && w[1].pos == DET && w[2].Lower() in c && w[3].pos != VERB
  {
    var sp := MR4.specs;
    assert sp[1..][1..][1..][1..] == [];
  }

  /** MR5 matches exactly the three-token windows with lemma "voir",
      candidate, and a third token that is not a verb. */
  lemma MR5Shape(w: seq<Token>, c: seq<string>)
    ensures Matches(MR5.specs, w, c) <==>
      |w| == 3 && w[0].lemmaForm == "voir" && w[1].Lower() in c && w[2].pos != VERB
  {
    var sp := MR5.specs;
    assert sp[1..][1..][1..] == [];
  }

  /** `MR3Tail` read from offset 2 of a window. */
  predicate MR3TailAt(w: seq<Token>)
    requires |w| >= 4
  {
    || (|w| == 4 && w[2].pos == NOUN && w[3].Lower() == "film")
    || (|w| == 5 && w[2].pos == DET && w[3].pos == NOUN && w[4].Lower() == "film")
    || (|w| == 5 && w[2].pos == NOUN && w[3].pos == ADP && w[4].Lower() == "film")
    || (|w| == 6 && w[2].pos == DET && w[3].pos == NOUN && w[4].pos == ADP && w[5].Lower() == "film")
  }

  /** MR3 matches adjective, candidate, then a noun followed by "film", with
      an optional determiner before the noun and an optional adposition after
      it: windows of four, five or six tokens. */
  lemma MR3Shape(w: seq<Token>, c: seq<string>)
    ensures Matches(MR3.specs, w, c) <==>
      && 4 <= |w| <= 6 && w[0].pos == ADJ && w[1].Lower() in c
      && (|| (|w| == 4 && w[2].pos == NOUN && w[3].Lower() == "film")
          || (|w| == 5 && w[2].pos == DET && w[3].pos == NOUN && w[4].Lower() == "film")
          || (|w| == 5 && w[2].pos == NOUN && w[3].pos == ADP && w[4].Lower() == "film")
          || (|w| == 6 && w[2].pos == DET && w[3].pos == NOUN && w[4].pos == ADP && w[5].Lower() == "film"))
  {
    if |w| > 0 {
      MR3From1(w[1..], c);
      if |w| >= 2 {
        assert w[1..][1..] == w[2..];
        assert MR3Tail(w[2..]) <==> 4 <= |w| <= 6 && MR3TailAt(w);
      }
    }
  }

  /** What follows the noun in MR3: "film", possibly after an adposition. */
  predicate AdpFilm(v: seq<Token>)
  {
    || (|v| == 1 && v[0].Lower() == "film")
    || (|v| == 2 && v[0].pos == ADP && v[1].Lower() == "film")
  }

  predicate NounAdpFilm(v: seq<Token>)
  {
    |v| > 0 && v[0].pos == NOUN && AdpFilm(v[1..])
  }

  lemma MR3From5(v: seq<Token>, c: seq<string>)
    ensures Matches(MR3.specs[5..], v, c) <==> |v| == 1 && v[0].Lower() == "film"
  {
    assert MR3.specs[5..][1..] == [];
  }

  lemma MR3From4(v: seq<Token>, c: seq<string>)
    ensures Matches(MR3.specs[4..], v, c) <==> AdpFilm(v)
  {
    assert MR3.specs[4..][1..] == MR3.specs[5..];
    MR3From5(v, c);
    if |v| > 0 {
      MR3From5(v[1..], c);
      if |v| == 2 {
        assert v[1..][0] == v[1];
      }
    }
  }

  lemma MR3From3(v: seq<Token>, c: seq<string>)
    ensures Matches(MR3.specs[3..], v, c) <==> NounAdpFilm(v)
  {
    assert MR3.specs[3..][1..] == MR3.specs[4..];
    if |v| > 0 {
      MR3From4(v[1..], c);
    }
  }

  lemma MR3From1(v: seq<Token>, c: seq<string>)
    ensures Matches(MR3.specs[1..], v, c) <==> |v| > 0 && v[0].Lower() in c && MR3Tail(v[1..])
  {
    assert MR3.specs[1..][1..] == MR3.specs[2..];
    if |v| > 0 {
      MR3From2(v[1..], c);
    }
  }

  /** What follows the candidate in MR3, the four shapes spelled out. */
  predicate MR3Tail(v: seq<Token>)
  {
    || (|v| == 2 && v[0].pos == NOUN && v[1].Lower() == "film")
    || (|v| == 3 && v[0].pos == DET && v[1].pos == NOUN && v[2].Lower() == "film")
    || (|v| == 3 && v[0].pos == NOUN && v[1].pos == ADP && v[2].Lower() == "film")
    || (|v| == 4 && v[0].pos == DET && v[1].pos == NOUN && v[2].pos == ADP && v[3].Lower() == "film")
  }

  lemma MR3From2(v: seq<Token>, c: seq<string>)
    ensures Matches(MR3.specs[2..], v, c) <==> MR3Tail(v)
  {
    assert MR3.specs[2..][1..] == MR3.specs[3..];
    MR3From3(v, c);
    if |v| > 0 {
      MR3From3(v[1..], c);
      if |v| > 1 {
        assert v[1..][1..] == v[2..];
      }
    }
  }

  /** The final list is the stable de-duplication of the MR1..MR5 outputs:
      the same titles, each once, ordered by first report, and unchanged by a
      second de-duplication. */
  lemma FineMatchIsStableDedup(candidates: seq<string>, toks: seq<Token>)
    ensures var all := AllRuleOutputs(toks, candidates);
      var r := FineMatch(candidates, toks);
      && (forall x :: x in r <==> x in all)
      && InFirstOccurrenceOrder(all, r)
      && Dedup(r) == r
  {
    var all := AllRuleOutputs(toks, candidates);
    DedupKeepsFirstOccurrenceOrder(all);
    DedupIdempotent(all);
  }

  /** A joined multi-word title read back from its token: the reported text
      is the title lower-cased, and the token's `LOWER` is the recorded form
      the candidate test looks for. */
  lemma JoinedTokenRecoversTitle(t: string, tok: Token)
    requires WordCount(t) > 1 && '_' !in t
    requires tok.text == Recorded(t)
    ensures tok.Lower() == Recorded(t)
    ensures Unjoin(tok.text) == FoldStr(t)
  {
    RecordedShape(t);
    JoinUnjoinRoundTrip(t);
  }

  /** A single-word title stored with a capital is recorded as stored, and
      no token's lower-cased text can equal a string that folding changes:
      the `LOWER IN` test never accepts a token for it. */
  lemma StoredCapitalNeverMatches(t: string, tok: Token)
    requires WordCount(t) <= 1 && FoldStr(t) != t
    ensures tok.Lower() != Recorded(t)
  {
    RecordedShape(t);
    FoldStrIdempotent(tok.text);
  }

  /** Consequently, when such a title is the only candidate, the grammar
      pass reports nothing, whatever the tokens. */
  lemma StoredCapitalReportsNothing(t: string, toks: seq<Token>)
    requires WordCount(t) <= 1 && FoldStr(t) != t
    ensures FineMatch([Recorded(t)], toks) == []
  {
    forall i | 0 <= i < |toks| ensures toks[i].Lower() !in [Recorded(t)] {
      StoredCapitalNeverMatches(t, toks[i]);
    }
    assert forall x :: !FromCandidateToken(x, toks, [Recorded(t)]);
    var r := FineMatch([Recorded(t)], toks);
    assert forall x :: x !in r;
    NoMembersMeansEmpty(r);
  }

  /** End to end, the other direction: for every match of MR1 to MR5 in the
      tagged rewritten transcript, with the lexical candidates, the slot
      token's text with underscores turned back into spaces is reported. */
  lemma ParseReportsEveryMatch(titles: seq<TitleRecord>, transcript: string, tag: string -> seq<Token>)
    requires KeptAreLiteral(titles, FoldStr(transcript))
    ensures var lex := BruteMatch(titles, transcript);
      var toks := tag(lex.text);
      forall k, w :: 0 <= k < |Rules| && MatchedWindow(Rules[k], toks, lex.candidates, w) ==>
        && w.start + Rules[k].position < |toks|
        && Unjoin(toks[w.start + Rules[k].position].text) in Parse(titles, transcript, tag)
  {
    var lex := BruteMatch(titles, transcript);
    var toks := tag(lex.text);
    forall k, w | 0 <= k < |Rules| && MatchedWindow(Rules[k], toks, lex.candidates, w)
      ensures && w.start + Rules[k].position < |toks|
              && Unjoin(toks[w.start + Rules[k].position].text) in FineMatch(lex.candidates, toks)
    {
      MatchIsReported(lex.candidates, toks, k, w);
    }
  }

  /** A match of rule `k` has its slot text in the result of the grammar
      pass. */
  lemma MatchIsReported(candidates: seq<string>, toks: seq<Token>, k: nat, w: Window)
    requires k < |Rules| && MatchedWindow(Rules[k], toks, candidates, w)
    ensures w.start + Rules[k].position < |toks|
    ensures Unjoin(toks[w.start + Rules[k].position].text) in FineMatch(candidates, toks)
  {
    RulesReportCandidateSlot();
    assert SlotIsCandidate(Rules[k]);
    SlotLandsOnCandidate(Rules[k], toks, candidates, w);
    var x := Unjoin(toks[w.start + Rules[k].position].text);
    assert SlotOf(Rules[k], toks, candidates, x);
    FineMatchIsMatchedSlots(candidates, toks, x);
  }

  /** End to end: every reported title is the unjoined text of a token of the
      rewritten transcript whose lower-cased text is the recorded form of a
      title that passed the lexical filter; with no such title, nothing is
      reported. */
  lemma ParseReportsDetectedTitles(titles: seq<TitleRecord>, transcript: string, tag: string -> seq<Token>)
    requires KeptAreLiteral(titles, FoldStr(transcript))
    ensures var lex := BruteMatch(titles, transcript);
      var toks := tag(lex.text);
      forall x :: x in Parse(titles, transcript, tag) ==>
        exists j, i :: (0 <= j < |toks| && 0 <= i < |titles|
          && Keep(titles[i].text, FoldStr(transcript))
          && toks[j].Lower() == Recorded(titles[i].text)
          && x == Unjoin(toks[j].text))
    ensures KeptIndices(titles, FoldStr(transcript)) == [] ==> Parse(titles, transcript, tag) == []
  {
    var lex := BruteMatch(titles, transcript);
    var toks := tag(lex.text);
    forall x | x in Parse(titles, transcript, tag)
      ensures exists j, i :: (0 <= j < |toks| && 0 <= i < |titles|
          && Keep(titles[i].text, FoldStr(transcript))
          && toks[j].Lower() == Recorded(titles[i].text)
          && x == Unjoin(toks[j].text))
    {
      assert FromCandidateToken(x, toks, lex.candidates);
      var j :| 0 <= j < |toks| && toks[j].Lower() in lex.candidates && x == Unjoin(toks[j].text);
      var i :| 0 <= i < |titles| && Keep(titles[i].text, FoldStr(transcript)) && toks[j].Lower() == Recorded(titles[i].text);
    }
  }
}

=== FILE: lexical.dfy ===
/**
 The lexical pass (`__brute_match`): walk the title list in order, keep the
 titles that are long enough, occur in the case-folded original transcript and
 are not a reserved word, record each kept title (multi-word titles joined
 with underscores and lower-cased, single words as stored), and rewrite every
 word-bounded, case-insensitive occurrence of the title in the current text
 into its recorded form.
 */
module Lexical {
  import opened Text
  import opened WordSub

  /** One row of the title corpus: the title text and its IMDb identifier. */
  datatype TitleRecord = TitleRecord(text: string, id: string)

  /** The pair `(rs_string, transcribed_text)` the pass returns. */
  datatype LexicalResult = LexicalResult(candidates: seq<string>, text: string)

  /** Titles equal to one of these after case folding are never candidates:
      the grammar rules use the word as a structural marker. */
  const Reserved: seq<string> := ["film"]

  /** The `not in exception_list` test, written out character by character
      rather than as `w in Reserved`: membership in a list of strings makes
      the solver reason about sequence equality in every proof that mentions
      the filter. `IsReservedMeansListed` shows the two agree. */
  predicate IsReserved(w: string)
  {
    |w| == 4 && w[0] == 'f' && w[1] == 'i' && w[2] == 'l' && w[3] == 'm'
  }

  lemma IsReservedMeansListed(w: string)
    ensures IsReserved(w) <==> w in Reserved
  {
    if IsReserved(w) {
      assert w == "film";
      assert Reserved[0] == w;
    }
  }

  /** Characters that can give a Python regular expression or replacement
      string a meaning other than the literal text. A title that passes the
      filter is interpolated into the pattern and used as the replacement
      without escaping, so the model covers runs whose passing titles are
      free of them; a title that fails the filter never reaches `re.sub` and
      may hold anything. `]` and `}` are literal outside a class and a
      count, so they are allowed; `{` is excluded although it is literal
      unless it opens a count such as `{2}` or `{1,3}`. */
  const Metacharacters: string := ".^$*+?{[\\|()"

  predicate RegexLiteral(t: string)
  {
    forall i :: 0 <= i < |t| ==> t[i] !in Metacharacters
  }

  /** Every title that passes the filter against `folded` is literal. */
  predicate KeptAreLiteral(titles: seq<TitleRecord>, folded: string)
  {
    forall i :: 0 <= i < |titles| && Keep(titles[i].text, folded) ==> RegexLiteral(titles[i].text)
  }

  /** The three-part filter: more than two characters, contained (plain
      substring, no word boundaries) in the case-folded original transcript,
      and not a reserved word. */
  predicate Keep(t: string, folded: string)
  {
    && |t| > 2
    && Contains(folded, FoldStr(t))
    && !IsReserved(FoldStr(t))
  }

  /** The form a kept title is recorded under and rewritten to. */
  function Recorded(t: string): (r: string)
    ensures |r| == |t|
  {
    if WordCount(t) > 1 then FoldStr(ReplaceChar(t, ' ', '_')) else t
  }

  /** Positions, from `i` on, of the titles that pass the filter, in
      increasing order. */
  function KeptFrom(titles: seq<TitleRecord>, folded: string, i: nat): (ix: seq<nat>)
    requires i <= |titles|
    ensures forall k :: 0 <= k < |ix| ==> i <= ix[k] < |titles| && Keep(titles[ix[k]].text, folded)
    ensures forall j :: i <= j < |titles| && Keep(titles[j].text, folded) ==> j in ix
    ensures forall k, l :: 0 <= k < l < |ix| ==> ix[k] < ix[l]
    ensures |ix| <= |titles| - i
    decreases |titles| - i
  {
    if i == |titles| then []
    else (if Keep(titles[i].text, folded) then [i] else []) + KeptFrom(titles, folded, i + 1)
  }

  function KeptIndices(titles: seq<TitleRecord>, folded: string): (ix: seq<nat>)
  {
    KeptFrom(titles, folded, 0)
  }

  /** The loop of the pass, from title `i` onwards. `folded` is the
      case-folded ORIGINAL transcript: detection never sees earlier rewrites,
      while each rewrite applies to the text left by the previous ones. */
  function ScanFrom(titles: seq<TitleRecord>, folded: string, text: string, i: nat): (r: LexicalResult)
    requires i <= |titles|
    ensures |r.text| == |text|
    decreases |titles| - i
  {
    if i == |titles| then LexicalResult([], text)
    else
      var t := titles[i].text;
      if Keep(t, folded) then
        var rec := Recorded(t);
        SubFromLength(t, rec, text, 0);
        var rest := ScanFrom(titles, folded, Sub(t, rec, text), i + 1);
        LexicalResult([rec] + rest.candidates, rest.text)
      else
        ScanFrom(titles, folded, text, i + 1)
  }

  /** The recorded forms of the titles at positions `ix`, in that order. */
  function RecordedAll(titles: seq<TitleRecord>, ix: seq<nat>): (r: seq<string>)
    requires forall k :: 0 <= k < |ix| ==> ix[k] < |titles|
    ensures |r| == |ix|
    ensures forall k :: 0 <= k < |ix| ==> r[k] == Recorded(titles[ix[k]].text)
  {
    seq(|ix|, k requires 0 <= k < |ix| => Recorded(titles[ix[k]].text))
  }

  /** The candidates are exactly the recorded forms of the titles that pass
      the filter, in list order, one entry per passing title: whatever the
      text looks like when a title's turn comes, and with no de-duplication. */
  lemma {:induction false} ScanRecordsKeptTitles(titles: seq<TitleRecord>, folded: string, text: string, i: nat)
    requires i <= |titles|
    ensures ScanFrom(titles, folded, text, i).candidates == RecordedAll(titles, KeptFrom(titles, folded, i))
    ensures KeptFrom(titles, folded, i) == [] ==> ScanFrom(titles, folded, text, i) == LexicalResult([], text)
    decreases |titles| - i
  {
    if i < |titles| {
      var t := titles[i].text;
      if Keep(t, folded) {
        var text' := Sub(t, Recorded(t), text);
        ScanRecordsKeptTitles(titles, folded, text', i + 1);
        RecordedAllStep(titles, folded, i);
      } else {
        ScanRecordsKeptTitles(titles, folded, text, i + 1);
      }
    }
  }

  /** A passing title contributes its recorded form ahead of the rest. */
  lemma RecordedAllStep(titles: seq<TitleRecord>, folded: string, i: nat)
    requires i < |titles| && Keep(titles[i].text, folded)
    ensures RecordedAll(titles, KeptFrom(titles, folded, i))
            == [Recorded(titles[i].text)] + RecordedAll(titles, KeptFrom(titles, folded, i + 1))
  {
    var tail := KeptFrom(titles, folded, i + 1);
    assert KeptFrom(titles, folded, i) == [i] + tail;
    RecordedAllCons(titles, i, tail);
  }

  lemma RecordedAllCons(titles: seq<TitleRecord>, i: nat, tail: seq<nat>)
    requires i < |titles| && forall k :: 0 <= k < |tail| ==> tail[k] < |titles|
    ensures RecordedAll(titles, [i] + tail) == [Recorded(titles[i].text)] + RecordedAll(titles, tail)
  {
    var ix := [i] + tail;
    var lhs := RecordedAll(titles, ix);
    var rhs := [Recorded(titles[i].text)] + RecordedAll(titles, tail);
    forall k | 0 <= k < |lhs| ensures lhs[k] == rhs[k] {
      if k > 0 {
        assert ix[k] == tail[k - 1];
      }
    }
  }

  /** The text with case and the space/underscore distinction forgotten. */
  function Skeleton(s: string): (r: string)
    ensures |r| == |s|
    ensures forall j :: 0 <= j < |s| ==> r[j] == SkelChar(s[j])
  {
    Unjoin(FoldStr(s))
  }

  function SkelChar(c: char): (r: char)
  {
    if FoldChar(c) == '_' then ' ' else FoldChar(c)
  }

  /** `b` is `a` up to case, or `a` is a space turned into an underscore.
      The rewrite never turns an underscore into a space. */
  predicate JoinChar(a: char, b: char)
  {
    FoldChar(a) == FoldChar(b) || (a == ' ' && b == '_')
  }

  /** `r` is `s` with letter case changed and some spaces turned into
      underscores, and nothing else. */
  predicate JoinedFrom(s: string, r: string)
  {
    |r| == |s| && forall j :: 0 <= j < |s| ==> JoinChar(s[j], r[j])
  }

  /** Joining twice is joining. */
  lemma JoinedFromTrans(a: string, b: string, c: string)
    requires JoinedFrom(a, b) && JoinedFrom(b, c)
    ensures JoinedFrom(a, c)
  {
    forall j | 0 <= j < |a| ensures JoinChar(a[j], c[j]) {
      FoldKeepsWordChars(a[j]);
      FoldKeepsWordChars(b[j]);
      FoldKeepsWordChars(c[j]);
    }
  }

  /** One rewrite changes only letter case and, for a multi-word title,
      turns the spaces of each occurrence into underscores: never the
      reverse. */
  lemma RewritePreservesSkeleton(t: string, text: string)
    requires 0 < |t|
    ensures JoinedFrom(text, Sub(t, Recorded(t), text))
    ensures Skeleton(Sub(t, Recorded(t), text)) == Skeleton(text)
  {
    SubIsFaithful(t, Recorded(t), text);
    FaithfulJoins(t, text, Sub(t, Recorded(t), text));
    FaithfulKeepsSkeleton(t, text, Sub(t, Recorded(t), text));
  }

  /** Any output whose characters are the input's own or rewritten ones is
      the input with case changed and spaces joined. */
  lemma FaithfulJoins(t: string, text: string, r: string)
    requires OnlyRewrites(t, Recorded(t), text, 0, r)
    ensures JoinedFrom(text, r)
  {
    forall j | 0 <= j < |text|
      ensures JoinChar(text[j], r[j])
    {
      assert r[j - 0] == r[j];
      RewrittenCharJoins(t, text, j, r[j]);
    }
  }

  /** A character the rewrite produced at position `j` is the input
      character there up to case, or an underscore over a space. */
  lemma RewrittenCharJoins(t: string, text: string, j: nat, c: char)
    requires j < |text|
    requires c == text[j] || RewrittenAt(t, Recorded(t), text, j, c)
    ensures JoinChar(text[j], c)
  {
    if c != text[j] {
      var k := RewrittenAtOffset(t, Recorded(t), text, j, c);
      RecordedCharJoins(t, k, text[j]);
    }
  }

  /** A character of the recorded form is, up to case, any character that
      matches the title's character there, except that a space may have
      become an underscore. */
  lemma RecordedCharJoins(t: string, k: nat, x: char)
    requires k < |t| && FoldChar(x) == FoldChar(t[k])
    ensures JoinChar(x, Recorded(t)[k])
  {
    FoldKeepsWordChars(t[k]);
    FoldKeepsWordChars(x);
    FoldKeepsWordChars('_');
  }

  /** Any output whose characters are the input's own or rewritten ones has
      the input's skeleton. */
  lemma FaithfulKeepsSkeleton(t: string, text: string, r: string)
    requires OnlyRewrites(t, Recorded(t), text, 0, r)
    ensures Skeleton(r) == Skeleton(text)
  {
    forall j | 0 <= j < |text|
      ensures SkelChar(r[j]) == SkelChar(text[j])
    {
      assert r[j - 0] == r[j];
      RewrittenCharSkeleton(t, text, j, r[j]);
    }
    assert forall j :: 0 <= j < |text| ==> Skeleton(r)[j] == Skeleton(text)[j];
  }

  /** A single-word title is rewritten to itself as stored: an isolated
      occurrence in any capitalisation comes out in the stored one. */
  lemma SingleWordTakesStoredCasing(t: string, text: string, p: nat)
    requires 0 < |t| && WordCount(t) <= 1
    requires MatchAt(t, text, p)
    requires forall q: nat :: p < q + |t| && q < p ==> !MatchAt(t, text, q)
    ensures |Sub(t, Recorded(t), text)| == |text|
    ensures Sub(t, Recorded(t), text)[p..p + |t|] == t
  {
    RecordedShape(t);
    SubRewritesIsolatedOccurrence(t, Recorded(t), text, 0, p);
  }

  /** A character the rewrite produced at position `j` has the skeleton of
      the input character there. */
  lemma RewrittenCharSkeleton(t: string, text: string, j: nat, c: char)
    requires j < |text|
    requires c == text[j] || RewrittenAt(t, Recorded(t), text, j, c)
    ensures SkelChar(c) == SkelChar(text[j])
  {
    if c != text[j] {
      var k := RewrittenAtOffset(t, Recorded(t), text, j, c);
      RecordedCharSkeleton(t, k, text[j]);
    }
  }

  /** A character of the recorded form has the skeleton of any character
      that matches the title's character there up to case. */
  lemma RecordedCharSkeleton(t: string, k: nat, x: char)
    requires k < |t| && FoldChar(x) == FoldChar(t[k])
    ensures SkelChar(Recorded(t)[k]) == SkelChar(x)
  {
    FoldKeepsWordChars(t[k]);
    FoldKeepsWordChars(x);
  }

  /** The whole loop changes only letter case and turns spaces into
      underscores, never the reverse. */
  lemma {:induction false} ScanPreservesSkeleton(titles: seq<TitleRecord>, folded: string, text: string, i: nat)
    requires i <= |titles|
    ensures JoinedFrom(text, ScanFrom(titles, folded, text, i).text)
    ensures Skeleton(ScanFrom(titles, folded, text, i).text) == Skeleton(text)
    decreases |titles| - i
  {
    if i < |titles| {
      var t := titles[i].text;
      if Keep(t, folded) {
        var text' := Sub(t, Recorded(t), text);
        RewritePreservesSkeleton(t, text);
        ScanPreservesSkeleton(titles, folded, text', i + 1);
        JoinedFromTrans(text, text', ScanFrom(titles, folded, text', i + 1).text);
      } else {
        ScanPreservesSkeleton(titles, folded, text, i + 1);
      }
    } else {
      assert JoinedFrom(text, text);
    }
  }

  /** `__brute_match(rs, transcribed_text)`. */
  function BruteMatch(titles: seq<TitleRecord>, transcript: string): (r: LexicalResult)
    requires KeptAreLiteral(titles, FoldStr(transcript))
    ensures |r.text| == |transcript|
    ensures JoinedFrom(transcript, r.text)
    ensures Skeleton(r.text) == Skeleton(transcript)
    ensures |r.candidates| <= |titles|
    ensures r.candidates == RecordedAll(titles, KeptIndices(titles, FoldStr(transcript)))
    ensures forall i :: 0 <= i < |titles| && Keep(titles[i].text, FoldStr(transcript)) ==>
              Recorded(titles[i].text) in r.candidates
    ensures forall x :: x in r.candidates ==>
              exists i :: 0 <= i < |titles| && Keep(titles[i].text, FoldStr(transcript)) && x == Recorded(titles[i].text)
    ensures KeptIndices(titles, FoldStr(transcript)) == [] ==> r == LexicalResult([], transcript)
  {
    var folded := FoldStr(transcript);
    ScanRecordsKeptTitles(titles, folded, transcript, 0);
    ScanPreservesSkeleton(titles, folded, transcript, 0);
    KeptRecordedMembership(titles, folded);
    ScanFrom(titles, folded, transcript, 0)
  }

  /** A title's recorded form is listed exactly when some title with that
      recorded form passes the filter. */
  lemma KeptRecordedMembership(titles: seq<TitleRecord>, folded: string)
    ensures forall i :: 0 <= i < |titles| && Keep(titles[i].text, folded) ==>
              Recorded(titles[i].text) in RecordedAll(titles, KeptIndices(titles, folded))
    ensures forall x :: x in RecordedAll(titles, KeptIndices(titles, folded)) ==>
              exists i :: 0 <= i < |titles| && Keep(titles[i].text, folded) && x == Recorded(titles[i].text)
  {
    var ix := KeptIndices(titles, folded);
    var rs := RecordedAll(titles, ix);
    forall i | 0 <= i < |titles| && Keep(titles[i].text, folded)
      ensures Recorded(titles[i].text) in rs
    {
      KeptIsListed(titles, folded, i);
    }
    forall x | x in rs
      ensures exists i :: 0 <= i < |titles| && Keep(titles[i].text, folded) && x == Recorded(titles[i].text)
    {
      var i := ListedIsKept(titles, folded, x);
      assert 0 <= i < |titles| && Keep(titles[i].text, folded) && x == Recorded(titles[i].text);
    }
  }

  lemma KeptIsListed(titles: seq<TitleRecord>, folded: string, i: nat)
    requires i < |titles| && Keep(titles[i].text, folded)
    ensures Recorded(titles[i].text) in RecordedAll(titles, KeptIndices(titles, folded))
  {
    var ix := KeptIndices(titles, folded);
    assert i in ix;
    var k :| 0 <= k < |ix| && ix[k] == i;
    assert RecordedAll(titles, ix)[k] == Recorded(titles[i].text);
  }

  lemma ListedIsKept(titles: seq<TitleRecord>, folded: string, x: string) returns (i: nat)
    requires x in RecordedAll(titles, KeptIndices(titles, folded))
    ensures i < |titles| && Keep(titles[i].text, folded) && x == Recorded(titles[i].text)
  {
    var ix := KeptIndices(titles, folded);
    var rs := RecordedAll(titles, ix);
    var k :| 0 <= k < |rs| && rs[k] == x;
    i := ix[k];
  }

  /** A multi-word title is recorded lower-cased with every space turned into
      an underscore; it is then one lower-case token, so spaCy's `LOWER` of it
      is the recorded form itself. A single-word title is recorded as stored. */
  lemma RecordedShape(t: string)
    ensures WordCount(t) <= 1 ==> Recorded(t) == t
    ensures WordCount(t) > 1 ==> ' ' !in Recorded(t) && FoldStr(Recorded(t)) == Recorded(t)
    ensures WordCount(t) > 1 && (forall i :: 0 <= i < |t| && IsSpace(t[i]) ==> t[i] == ' ') ==>
              forall i :: 0 <= i < |t| ==> !IsSpace(Recorded(t)[i])
  {
    var r := Recorded(t);
    forall i | 0 <= i < |t|
      ensures WordCount(t) > 1 ==> r[i] != ' ' && FoldChar(r[i]) == r[i]
      ensures WordCount(t) > 1 && IsSpace(r[i]) ==> IsSpace(t[i]) && t[i] != ' '
    {
      FoldKeepsWordChars(t[i]);
      FoldKeepsWordChars(FoldChar(t[i]));
    }
  }

  /** Join/unjoin round trip: unjoining the recorded form of a multi-word
      title without underscores gives back the title, lower-cased. */
  lemma JoinUnjoinRoundTrip(t: string)
    requires WordCount(t) > 1 && '_' !in t
    ensures Unjoin(Recorded(t)) == FoldStr(t)
  {
    var r := Recorded(t);
    forall i | 0 <= i < |t|
      ensures Unjoin(r)[i] == FoldStr(t)[i]
    {
      FoldKeepsWordChars(t[i]);
    }
  }

  /** The words of a multi-word string are separated by a whitespace
      character. `SeparatedWordsCount` is the converse. */
  lemma {:induction false} MultiWordHasSpace(s: string, n: nat)
    requires n <= |s| && WordsBefore(s, n) > 1
    ensures exists u :: 0 < u < n && IsSpace(s[u])
  {
    if WordsBefore(s, n - 1) > 1 {
      MultiWordHasSpace(s, n - 1);
    } else {
      assert WordStart(s, n - 1) && n - 1 > 0;
      assert IsSpace(s[n - 2]);
      if n - 2 == 0 {
        assert !WordStart(s, 0) && WordsBefore(s, 1) == 0;
      }
    }
  }

  /** Two non-whitespace characters with whitespace between them belong to
      two different words: `split()` yields more than one word. */
  lemma SeparatedWordsCount(s: string, i: nat, j: nat, k: nat)
    requires i < j < k < |s|
    requires !IsSpace(s[i]) && IsSpace(s[j]) && !IsSpace(s[k])
    ensures WordCount(s) > 1
  {
    var p := WordStartWithin(s, 0, i);
    var q := WordStartWithin(s, j + 1, k);
    WordStartCounts(s, p, q);
    WordStartCounts(s, q, |s|);
  }

  /** A non-whitespace character at `k` belongs to a word that starts at or
      after `lo`, when `lo` begins the text or follows whitespace. */
  lemma {:induction false} WordStartWithin(s: string, lo: nat, k: nat) returns (p: nat)
    requires lo <= k < |s| && !IsSpace(s[k])
    requires lo == 0 || IsSpace(s[lo - 1])
    ensures lo <= p <= k && WordStart(s, p)
    decreases k - lo
  {
    if k == lo || IsSpace(s[k - 1]) {
      p := k;
    } else {
      p := WordStartWithin(s, lo, k - 1);
    }
  }

  /** A word start before `n` is counted among the words before `n`. */
  lemma {:induction false} WordStartCounts(s: string, p: nat, n: nat)
    requires p < n <= |s| && WordStart(s, p)
    ensures WordsBefore(s, n) >= WordsBefore(s, p) + 1
    decreases n
  {
    if n - 1 > p {
      WordStartCounts(s, p, n - 1);
    }
  }

  /** A multi-word title made of word characters and single spaces is
      recorded as a run of word characters containing an underscore. */
  lemma JoinedFormIsWordRun(t: string) returns (u: nat)
    requires WordCount(t) > 1
    requires forall i :: 0 <= i < |t| ==> IsWordChar(t[i]) || t[i] == ' '
    ensures u < |t| && Recorded(t)[u] == '_'
    ensures forall i :: 0 <= i < |t| ==> IsWordChar(Recorded(t)[i])
  {
    MultiWordHasSpace(t, |t|);
    u :| 0 < u < |t| && IsSpace(t[u]);
    var joined := ReplaceChar(t, ' ', '_');
    var r := FoldStr(joined);
    assert Recorded(t) == r;
    forall i | 0 <= i < |t|
      ensures IsWordChar(r[i])
    {
      assert IsWordChar(joined[i]);
      FoldKeepsWordChars(joined[i]);
    }
    FoldKeepsWordChars(joined[u]);
  }

  /** Detection never looks at the text being rewritten: the candidate list
      is the same whatever text the loop starts from. */
  lemma DetectionIgnoresRewrites(titles: seq<TitleRecord>, folded: string, text1: string, text2: string)
    ensures ScanFrom(titles, folded, text1, 0).candidates == ScanFrom(titles, folded, text2, 0).candidates
  {
    ScanRecordsKeptTitles(titles, folded, text1, 0);
    ScanRecordsKeptTitles(titles, folded, text2, 0);
  }

  /** Containment in the case-folded transcript is inherited by a shorter
      title contained in a longer detected one, so the shorter title is
      recorded too even after the longer one has been joined. */
  lemma ContainedTitleStillDetected(long: string, short: string, folded: string)
    requires Keep(long, folded)
    requires Contains(FoldStr(long), FoldStr(short))
    requires |short| > 2 && !IsReserved(FoldStr(short))
    ensures Keep(short, folded)
  {
    var fl, fs := FoldStr(long), FoldStr(short);
    var i :| 0 <= i <= |folded| - |fl| && OccursAt(folded, fl, i);
    var j :| 0 <= j <= |fl| - |fs| && OccursAt(fl, fs, j);
    assert folded[i..i + |fl|] == fl && fl[j..j + |fs|] == fs;
    var w := folded[i + j..i + j + |fs|];
    forall k | 0 <= k < |fs|
      ensures w[k] == fs[k]
    {
      assert w[k] == folded[i..i + |fl|][j + k];
      assert fl[j + k] == fl[j..j + |fs|][k];
    }
    assert OccursAt(folded, fs, i + j);
  }

  /** Detection is plain containment: a title embedded in a longer word is
      recorded, although the word-bounded rewrite cannot match it there. */
  lemma EmbeddedTitleDetected(pre: string, t: string, post: string)
    requires |t| > 2 && !IsReserved(FoldStr(t))
    requires |post| > 0 && IsWordChar(t[|t| - 1]) && IsWordChar(post[0])
    ensures Keep(t, FoldStr(pre + t + post))
    ensures !MatchAt(t, pre + t + post, |pre|)
  {
    var s := pre + t + post;
    assert FoldStr(s)[|pre|..|pre| + |t|] == FoldStr(t);
    assert OccursAt(FoldStr(s), FoldStr(t), |pre|);
    assert s[|pre| + |t| - 1] == t[|t| - 1] && s[|pre| + |t|] == post[0];
  }

  /** A title that fails the filter changes nothing: dropping it from the
      list leaves both the candidates and the rewritten text as they were. */
  lemma FailingTitleIsInert(titles: seq<TitleRecord>, transcript: string, i: nat)
    requires KeptAreLiteral(titles, FoldStr(transcript)) && i < |titles|
    requires !Keep(titles[i].text, FoldStr(transcript))
    ensures KeptAreLiteral(titles[..i] + titles[i + 1..], FoldStr(transcript))
    ensures BruteMatch(titles[..i] + titles[i + 1..], transcript) == BruteMatch(titles, transcript)
  {
    var dropped := titles[..i] + titles[i + 1..];
    assert forall j :: 0 <= j < i ==> dropped[j] == titles[j];
    assert forall j :: i <= j < |dropped| ==> dropped[j] == titles[j + 1];
    forall k | 0 <= k < |dropped| && Keep(dropped[k].text, FoldStr(transcript))
      ensures RegexLiteral(dropped[k].text)
    {
      if k < i { assert dropped[k] == titles[k]; } else { assert dropped[k] == titles[k + 1]; }
    }
    DropBefore(titles, dropped, FoldStr(transcript), transcript, i, 0);
  }

  /** Past the position of the dropped title, the loop over the shortened
      list is the loop over the full list one title later. */
  lemma {:induction false} DropAfter(titles: seq<TitleRecord>, dropped: seq<TitleRecord>, folded: string, text: string, i: nat, j: nat)
    requires i < |titles| && |dropped| == |titles| - 1
    requires forall k :: i <= k < |dropped| ==> dropped[k] == titles[k + 1]
    requires i <= j <= |dropped|
    ensures ScanFrom(dropped, folded, text, j) == ScanFrom(titles, folded, text, j + 1)
    decreases |dropped| - j
  {
    if j < |dropped| {
      var t := dropped[j].text;
      assert t == titles[j + 1].text;
      if Keep(t, folded) {
        DropAfter(titles, dropped, folded, Sub(t, Recorded(t), text), i, j + 1);
      } else {
        DropAfter(titles, dropped, folded, text, i, j + 1);
      }
    }
  }

  /** Before the position of a dropped title that fails the filter, the
      loops over the shortened and the full list give the same result. */
  lemma {:induction false} DropBefore(titles: seq<TitleRecord>, dropped: seq<TitleRecord>, folded: string, text: string, i: nat, j: nat)
    requires i < |titles| && |dropped| == |titles| - 1
    requires forall k :: 0 <= k < i ==> dropped[k] == titles[k]
    requires forall k :: i <= k < |dropped| ==> dropped[k] == titles[k + 1]
    requires !Keep(titles[i].text, folded)
    requires j <= i
    ensures ScanFrom(dropped, folded, text, j) == ScanFrom(titles, folded, text, j)
    decreases i - j
  {
    if j == i {
      DropAfter(titles, dropped, folded, text, i, i);
    } else {
      var t := titles[j].text;
      assert dropped[j] == titles[j];
      if Keep(t, folded) {
        DropBefore(titles, dropped, folded, Sub(t, Recorded(t), text), i, j + 1);
      } else {
        DropBefore(titles, dropped, folded, text, i, j + 1);
      }
    }
  }

  /** A joined span (word characters around an underscore) survives every
      later title that has no underscore of its own: neither its detection
      nor its rewrite can reach inside the span. */
  lemma {:induction false} JoinedSpanSurvivesScan(titles: seq<TitleRecord>, folded: string, text: string, i: nat, a: nat, b: nat, u: nat)
    requires i <= |titles|
    requires forall k :: i <= k < |titles| ==> '_' !in titles[k].text
    requires a <= u < b <= |text| && text[u] == '_'
    requires forall k :: a <= k < b ==> IsWordChar(text[k])
    ensures ScanFrom(titles, folded, text, i).text[a..b] == text[a..b]
    decreases |titles| - i
  {
    if i < |titles| {
      var t := titles[i].text;
      if Keep(t, folded) {
        var text' := Sub(t, Recorded(t), text);
        JoinedSpanUntouched(t, Recorded(t), text, a, b, u);
        assert text'[u] == text[u];
        forall k | a <= k < b ensures IsWordChar(text'[k]) {
          assert text'[a..b][k - a] == text[a..b][k - a];
        }
        JoinedSpanSurvivesScan(titles, folded, text', i + 1, a, b, u);
      } else {
        JoinedSpanSurvivesScan(titles, folded, text, i + 1, a, b, u);
      }
    }
  }

  /** Longest-first precedence: once a multi-word title has been joined at an
      occurrence no earlier occurrence overlaps, the joined form stays in the
      final text whatever shorter, underscore-free titles follow it. */
  lemma JoinedTitleSurvives(titles: seq<TitleRecord>, folded: string, text: string, i: nat, p: nat)
    requires i < |titles|
    requires forall k :: i <= k < |titles| ==> '_' !in titles[k].text
    requires Keep(titles[i].text, folded) && WordCount(titles[i].text) > 1
    requires forall k :: 0 <= k < |titles[i].text| ==> IsWordChar(titles[i].text[k]) || titles[i].text[k] == ' '
    requires MatchAt(titles[i].text, text, p)
    requires forall q: nat :: p < q + |titles[i].text| && q < p ==> !MatchAt(titles[i].text, text, q)
    ensures ScanFrom(titles, folded, text, i).text[p..p + |titles[i].text|] == Recorded(titles[i].text)
  {
    var t := titles[i].text;
    var u := JoinedFormIsWordRun(t);
    IsolatedWordRun(t, Recorded(t), text, p, u);
    JoinedRunSurvives(titles, folded, text, Sub(t, Recorded(t), text), i, p, u);
  }

  /** The scan step for a kept title whose rewrite left a joined run at `p`:
      the run reaches the final text unchanged. */
  lemma JoinedRunSurvives(titles: seq<TitleRecord>, folded: string, text: string, text': string, i: nat, p: nat, u: nat)
    requires i < |titles|
    requires forall k :: i + 1 <= k < |titles| ==> '_' !in titles[k].text
    requires Keep(titles[i].text, folded)
    requires text' == Sub(titles[i].text, Recorded(titles[i].text), text)
    requires p + |titles[i].text| <= |text'| && u < |titles[i].text| && text'[p + u] == '_'
    requires forall k :: p <= k < p + |titles[i].text| ==> IsWordChar(text'[k])
    ensures ScanFrom(titles, folded, text, i).text[p..p + |titles[i].text|] == text'[p..p + |titles[i].text|]
  {
    var n := |titles[i].text|;
    JoinedSpanSurvivesScan(titles, folded, text', i + 1, p, p + n, p + u);
    KeptStep(titles, folded, text, i);
  }

  /** A title that passes the filter rewrites the text before the rest of
      the list sees it. */
  lemma KeptStep(titles: seq<TitleRecord>, folded: string, text: string, i: nat)
    requires i < |titles| && Keep(titles[i].text, folded)
    ensures ScanFrom(titles, folded, text, i).text
            == ScanFrom(titles, folded, Sub(titles[i].text, Recorded(titles[i].text), text), i + 1).text
  {
  }
}

=== FILE: matcher.dfy ===
/**
 The part of spaCy's rule-based `Matcher` the grammar rules rely on, over an
 already tagged token sequence. A pattern is a list of token specifications;
 each tests one attribute of a token and carries an operator: exactly one
 token, `"?"` (zero or one token) or `"!"` (one token for which the test
 fails). The matcher reports every window `[start, end)` the pattern matches
 in full, once per window, in the order the windows complete.
 */
module Matcher {
  import opened Text

  /** Universal part-of-speech tags. */
  datatype Pos =
    | ADJ | ADP | ADV | AUX | CCONJ | DET | INTJ | NOUN | NUM | PART
    | PRON | PROPN | PUNCT | SCONJ | SYM | VERB | X | SPACE

  /** A token as the tagger delivers it: surface text, tag and lemma. */
  datatype Token = Token(text: string, pos: Pos, lemmaForm: string)
  {
    /** spaCy's `lower_`: the surface text lower-cased. */
    function Lower(): (r: string)
    {
      FoldStr(text)
    }
  }

  /** The token attributes the rules test. `LowerInCandidates` is
      `{"LOWER": {"IN": rs_string}}`, the candidate list being supplied at
      match time. */
  datatype Attr =
    | LowerIs(word: string)
    | LowerInCandidates
    | PosIs(tag: Pos)
    | TextIs(word: string)
    | LemmaIs(word: string)

  datatype Op = One | Optional | Negated

  datatype TokenSpec = TokenSpec(attr: Attr, op: Op)

  /** A pattern and the offset, from the start of a match, of the token whose
      text is reported. */
  datatype Rule = Rule(specs: seq<TokenSpec>, position: nat)

  datatype Window = Window(start: nat, end: nat)

  predicate Holds(a: Attr, t: Token, candidates: seq<string>)
  {
    match a
    case LowerIs(w) => t.Lower() == w
    case LowerInCandidates => t.Lower() in candidates
    case PosIs(p) => t.pos == p
    case TextIs(w) => t.text == w
    case LemmaIs(w) => t.lemmaForm == w
  }

  predicate Accepts(spec: TokenSpec, t: Token, candidates: seq<string>)
  {
    if spec.op == Negated then !Holds(spec.attr, t, candidates) else Holds(spec.attr, t, candidates)
  }

  /** The whole of `ts` is matched by `specs`. */
  predicate Matches(specs: seq<TokenSpec>, ts: seq<Token>, candidates: seq<string>)
    decreases |specs|
  {
    if |specs| == 0 then |ts| == 0
    else if specs[0].op == Optional then
      || Matches(specs[1..], ts, candidates)
      || (|ts| > 0 && Accepts(specs[0], ts[0], candidates) && Matches(specs[1..], ts[1..], candidates))
    else
      |ts| > 0 && Accepts(specs[0], ts[0], candidates) && Matches(specs[1..], ts[1..], candidates)
  }

  /** The reported token sits at or before the first optional specification,
      so its offset does not depend on which optional tokens were present. */
  predicate ValidRule(rule: Rule)
  {
    && rule.position < |rule.specs|
    && forall k :: 0 <= k <= rule.position ==> rule.specs[k].op != Optional
  }

  /** A valid rule whose reported token is the one tested against the
      candidate list. */
  predicate SlotIsCandidate(rule: Rule)
  {
    ValidRule(rule) && rule.specs[rule.position] == TokenSpec(LowerInCandidates, One)
  }

  /** `w1` completes before `w2`: ends earlier, or ends together and starts
      earlier. */
  predicate Before(w1: Window, w2: Window)
  {
    w1.end < w2.end || (w1.end == w2.end && w1.start < w2.start)
  }

  predicate MatchedWindow(rule: Rule, toks: seq<Token>, candidates: seq<string>, w: Window)
  {
    w.start < w.end <= |toks| && Matches(rule.specs, toks[w.start..w.end], candidates)
  }

  /** The matching windows `[x, e)` with `x < s`, by increasing start. */
  function EndingAt(rule: Rule, toks: seq<Token>, candidates: seq<string>, e: nat, s: nat): (ws: seq<Window>)
    requires s <= e <= |toks|
    ensures forall w :: w in ws <==> w.end == e && w.start < s && MatchedWindow(rule, toks, candidates, w)
    ensures forall k, l :: 0 <= k < l < |ws| ==> ws[k].start < ws[l].start
    ensures forall k :: 0 <= k < |ws| ==> ws[k].end == e && ws[k].start < s
  {
    if s == 0 then []
    else
      EndingAt(rule, toks, candidates, e, s - 1)
      + (if MatchedWindow(rule, toks, candidates, Window(s - 1, e)) then [Window(s - 1, e)] else [])
  }

  /** The matching windows ending at or before `e`, in completion order. */
  function WindowsUpTo(rule: Rule, toks: seq<Token>, candidates: seq<string>, e: nat): (ws: seq<Window>)
    requires e <= |toks|
    ensures forall w :: w in ws <==> w.end <= e && MatchedWindow(rule, toks, candidates, w)
    ensures forall k, l :: 0 <= k < l < |ws| ==> Before(ws[k], ws[l])
    ensures forall k :: 0 <= k < |ws| ==> ws[k].end <= e
  {
    if e == 0 then []
    else WindowsUpTo(rule, toks, candidates, e - 1) + EndingAt(rule, toks, candidates, e, e)
  }

  /** Every window the rule matches, each once, in completion order. */
  function MatchWindows(rule: Rule, toks: seq<Token>, candidates: seq<string>): (ws: seq<Window>)
    ensures forall w :: w in ws <==> MatchedWindow(rule, toks, candidates, w)
    ensures forall k, l :: 0 <= k < l < |ws| ==> Before(ws[k], ws[l])
  {
    WindowsUpTo(rule, toks, candidates, |toks|)
  }

  /** Every specification up to offset `m` is non-optional, so each consumes
      exactly one token: a match aligns them with the first `m + 1` tokens. */
  lemma {:induction false} MatchPrefixAligned(specs: seq<TokenSpec>, ts: seq<Token>, candidates: seq<string>, m: nat)
    requires Matches(specs, ts, candidates)
    requires m < |specs| && forall k :: 0 <= k <= m ==> specs[k].op != Optional
    ensures m < |ts|
    ensures forall k :: 0 <= k <= m ==> Accepts(specs[k], ts[k], candidates)
    decreases m
  {
    if m > 0 {
      MatchPrefixAligned(specs[1..], ts[1..], candidates, m - 1);
      forall k | 1 <= k <= m
        ensures Accepts(specs[k], ts[k], candidates)
      {
        assert specs[1..][k - 1] == specs[k] && ts[1..][k - 1] == ts[k];
      }
    }
  }

  /** The reported token of a match lies inside the window and, when the rule
      reports the candidate-tested token, its lower-cased text is a
      candidate. */
  lemma SlotLandsOnCandidate(rule: Rule, toks: seq<Token>, candidates: seq<string>, w: Window)
    requires ValidRule(rule) && MatchedWindow(rule, toks, candidates, w)
    ensures w.start + rule.position < w.end
    ensures SlotIsCandidate(rule) ==> toks[w.start + rule.position].Lower() in candidates
  {
    var ts := toks[w.start..w.end];
    MatchPrefixAligned(rule.specs, ts, candidates, rule.position);
    assert ts[rule.position] == toks[w.start + rule.position];
  }

  /** A pattern that needs one candidate token cannot match when there are
      no candidates. */
  lemma {:induction false} NoCandidatesNoMatch(specs: seq<TokenSpec>, ts: seq<Token>, k: nat)
    requires k < |specs| && specs[k] == TokenSpec(LowerInCandidates, One)
    ensures !Matches(specs, ts, [])
    decreases |specs|
  {
    if k > 0 {
      assert specs[1..][k - 1] == specs[k];
      NoCandidatesNoMatch(specs[1..], ts, k - 1);
      if |ts| > 0 {
        NoCandidatesNoMatch(specs[1..], ts[1..], k - 1);
      }
    }
  }

  /** `x` is the unjoined text of a token whose lower-cased text is a
      candidate. */
  ghost predicate FromCandidateToken(x: string, toks: seq<Token>, candidates: seq<string>)
  {
    exists i :: 0 <= i < |toks| && toks[i].Lower() in candidates && x == Unjoin(toks[i].text)
  }

  /** The reported texts of the windows `ws`: the token at the rule's offset,
      underscores turned back into spaces. */
  function ExtractAll(rule: Rule, toks: seq<Token>, candidates: seq<string>, ws: seq<Window>): (r: seq<string>)
    requires ValidRule(rule)
    requires forall k :: 0 <= k < |ws| ==> MatchedWindow(rule, toks, candidates, ws[k])
    ensures |r| == |ws|
    ensures forall k :: 0 <= k < |r| ==> '_' !in r[k]
    ensures SlotIsCandidate(rule) ==> forall k :: 0 <= k < |r| ==> FromCandidateToken(r[k], toks, candidates)
  {
    if |ws| == 0 then []
    else
      var w := ws[0];
      SlotLandsOnCandidate(rule, toks, candidates, w);
      var slot := w.start + rule.position;
      [Unjoin(toks[slot].text)] + ExtractAll(rule, toks, candidates, ws[1..])
  }

  /** `__match_film`: the reported text of every match of one rule. */
  function Extract(rule: Rule, toks: seq<Token>, candidates: seq<string>): (r: seq<string>)
    requires ValidRule(rule)
    ensures |r| == |MatchWindows(rule, toks, candidates)|
    ensures forall k :: 0 <= k < |r| ==> '_' !in r[k]
    ensures SlotIsCandidate(rule) ==> forall k :: 0 <= k < |r| ==> FromCandidateToken(r[k], toks, candidates)
  {
    var ws := MatchWindows(rule, toks, candidates);
    assert forall k :: 0 <= k < |ws| ==> MatchedWindow(rule, toks, candidates, ws[k]) by {
      forall k | 0 <= k < |ws| ensures MatchedWindow(rule, toks, candidates, ws[k]) {
        assert ws[k] in ws;
      }
    }
    ExtractAll(rule, toks, candidates, ws)
  }

  /** `x` is what the rule reports for one of its matches: the text of the
      token at the rule's offset in a matched window, underscores turned back
      into spaces. */
  ghost predicate SlotOf(rule: Rule, toks: seq<Token>, candidates: seq<string>, x: string)
  {
    exists w :: MatchedWindow(rule, toks, candidates, w) && w.start + rule.position < |toks|
      && x == Unjoin(toks[w.start + rule.position].text)
  }

  /** Report `k` belongs to window `k`: it is the unjoined text of the token
      at the rule's offset in that window. */
  lemma {:induction false} ExtractAllAt(rule: Rule, toks: seq<Token>, candidates: seq<string>, ws: seq<Window>, k: nat)
    requires ValidRule(rule)
    requires forall k :: 0 <= k < |ws| ==> MatchedWindow(rule, toks, candidates, ws[k])
    requires k < |ws|
    ensures ws[k].start + rule.position < |toks|
    ensures ExtractAll(rule, toks, candidates, ws)[k] == Unjoin(toks[ws[k].start + rule.position].text)
    decreases k
  {
    SlotLandsOnCandidate(rule, toks, candidates, ws[k]);
    if k > 0 {
      ExtractAllAt(rule, toks, candidates, ws[1..], k - 1);
      assert ws[1..][k - 1] == ws[k];
    }
  }

  /** Every window `MatchWindows` lists is a match, and `Extract` reports
      those windows one by one. */
  lemma ListedWindowsMatch(rule: Rule, toks: seq<Token>, candidates: seq<string>)
    requires ValidRule(rule)
    ensures var ws := MatchWindows(rule, toks, candidates);
      && (forall k :: 0 <= k < |ws| ==> MatchedWindow(rule, toks, candidates, ws[k]))
      && Extract(rule, toks, candidates) == ExtractAll(rule, toks, candidates, ws)
  {
    var ws := MatchWindows(rule, toks, candidates);
    forall k | 0 <= k < |ws| ensures MatchedWindow(rule, toks, candidates, ws[k]) {
      assert ws[k] in ws;
    }
  }

  /** The position of a matched window in the list `MatchWindows` returns. */
  lemma WindowIndex(rule: Rule, toks: seq<Token>, candidates: seq<string>, w: Window) returns (k: nat)
    requires MatchedWindow(rule, toks, candidates, w)
    ensures k < |MatchWindows(rule, toks, candidates)| && MatchWindows(rule, toks, candidates)[k] == w
  {
    var ws := MatchWindows(rule, toks, candidates);
    assert w in ws;
    k :| 0 <= k < |ws| && ws[k] == w;
  }

  /** Each report of `__match_film` is the slot text of one of the rule's
      matches. */
  lemma ExtractOnlySlots(rule: Rule, toks: seq<Token>, candidates: seq<string>, x: string)
    requires ValidRule(rule)
    ensures x in Extract(rule, toks, candidates) ==> SlotOf(rule, toks, candidates, x)
  {
    var ws := MatchWindows(rule, toks, candidates);
    ListedWindowsMatch(rule, toks, candidates);
    var r := ExtractAll(rule, toks, candidates, ws);
    if x in r {
      var k :| 0 <= k < |r| && r[k] == x;
      ExtractAllAt(rule, toks, candidates, ws, k);
      var w := ws[k];
      assert MatchedWindow(rule, toks, candidates, w) && w.start + rule.position < |toks|
        && x == Unjoin(toks[w.start + rule.position].text);
    }
  }

  /** The slot text of every match of the rule is among the reports of
      `__match_film`. */
  lemma ExtractHasSlots(rule: Rule, toks: seq<Token>, candidates: seq<string>, w: Window)
    requires ValidRule(rule)
    requires MatchedWindow(rule, toks, candidates, w)
    ensures w.start + rule.position < |toks|
    ensures Unjoin(toks[w.start + rule.position].text) in Extract(rule, toks, candidates)
  {
    SlotLandsOnCandidate(rule, toks, candidates, w);
    var ws := MatchWindows(rule, toks, candidates);
    ListedWindowsMatch(rule, toks, candidates);
    var k := WindowIndex(rule, toks, candidates, w);
    ExtractAllAt(rule, toks, candidates, ws, k);
    var r := ExtractAll(rule, toks, candidates, ws);
    assert r[k] in r;
  }

  /** `__match_film` reports exactly the slot texts of the rule's matches:
      nothing else, and every matched window's slot text at least once. */
  lemma ExtractIsSlots(rule: Rule, toks: seq<Token>, candidates: seq<string>, x: string)
    requires ValidRule(rule)
    ensures x in Extract(rule, toks, candidates) <==> SlotOf(rule, toks, candidates, x)
  {
    if x in Extract(rule, toks, candidates) {
      ExtractOnlySlots(rule, toks, candidates, x);
    }
    if SlotOf(rule, toks, candidates, x) {
      SlotIsExtracted(rule, toks, candidates, x);
    }
  }

  lemma SlotIsExtracted(rule: Rule, toks: seq<Token>, candidates: seq<string>, x: string)
    requires ValidRule(rule)
    requires SlotOf(rule, toks, candidates, x)
    ensures x in Extract(rule, toks, candidates)
  {
    var w :| MatchedWindow(rule, toks, candidates, w) && w.start + rule.position < |toks|
      && x == Unjoin(toks[w.start + rule.position].text);
    ExtractHasSlots(rule, toks, candidates, w);
  }

  /** With an empty candidate list a rule that reports its candidate token
      yields nothing. */
  lemma NoCandidatesNothingExtracted(rule: Rule, toks: seq<Token>)
    requires SlotIsCandidate(rule)
    ensures Extract(rule, toks, []) == []
  {
    var ws := MatchWindows(rule, toks, []);
    if |ws| > 0 {
      assert ws[0] in ws;
      NoCandidatesNoMatch(rule.specs, toks[ws[0].start..ws[0].end], rule.position);
    }
  }
}

=== FILE: text.dfy ===
/**
 Character-level vocabulary shared by the lexical pass and the rule engine:
 case folding, the regular-expression notion of a word character, Python's
 notion of whitespace (as used by `str.split()`), and the two single-character
 substitutions (space to underscore and back) that join and unjoin titles.
 */
module Text {

  /** Lower-casing of one character: ASCII and Latin-1 capitals map to their
      small letters, and so do the two French capitals outside Latin-1, `Œ`
      and `Ÿ`; every other character is left as it is. This is what Python's
      `lower()`, the `IGNORECASE` comparison of `re` and spaCy's `lower_` do
      on the letters of French. `casefold()` differs on two Latin-1 letters,
      which fold further (`µ` to Greek `μ`, `ß` to `ss`); the model does not
      follow it there. */
  function FoldChar(c: char): (r: char)
  {
    if 'A' <= c <= 'Z' then (c as int + 32) as char
    else if '\U{C0}' <= c <= '\U{DE}' && c != '\U{D7}' then (c as int + 32) as char
    else if c == '\U{152}' then '\U{153}'
    else if c == '\U{178}' then '\U{FF}'
    else c
  }

  /** Case folding of a whole string, one character at a time; folding an
      already folded string changes nothing. */
  function FoldStr(s: string): (r: string)
    ensures |r| == |s|
    ensures forall i :: 0 <= i < |s| ==> r[i] == FoldChar(s[i])
    ensures forall i :: 0 <= i < |r| ==> FoldChar(r[i]) == r[i]
  {
    var r := seq(|s|, i requires 0 <= i < |s| => FoldChar(s[i]));
    forall i | 0 <= i < |s| ensures FoldChar(r[i]) == r[i] {
      FoldKeepsWordChars(s[i]);
    }
    r
  }

  /** The characters matched by `\w` in a Python `str` pattern: letters and
      digits (ASCII and Latin-1, plus Latin Extended-A and -B) and `_`. */
  predicate IsWordChar(c: char)
  {
    || 'a' <= c <= 'z'
    || 'A' <= c <= 'Z'
    || '0' <= c <= '9'
    || c == '_'
    || c == '\U{AA}' || c == '\U{B2}' || c == '\U{B3}' || c == '\U{B5}'
    || c == '\U{B9}' || c == '\U{BA}'
    || ('\U{BC}' <= c <= '\U{BE}')
    || ('\U{C0}' <= c <= '\U{24F}' && c != '\U{D7}' && c != '\U{F7}')
  }

  /** The characters Python's `str.isspace()` accepts, which is what
      `str.split()` without arguments splits on. */
  predicate IsSpace(c: char)
  {
    || c == ' ' || ('\t' <= c <= '\r')
    || ('\U{1C}' <= c <= '\U{1F}')
    || c == '\U{85}' || c == '\U{A0}' || c == '\U{1680}'
    || ('\U{2000}' <= c <= '\U{200A}')
    || c == '\U{2028}' || c == '\U{2029}' || c == '\U{202F}' || c == '\U{205F}' || c == '\U{3000}'
  }

  lemma FoldKeepsWordChars(c: char)
    ensures IsWordChar(FoldChar(c)) <==> IsWordChar(c)
    ensures IsSpace(FoldChar(c)) <==> IsSpace(c)
    ensures FoldChar(c) == '_' <==> c == '_'
    ensures FoldChar(c) == ' ' <==> c == ' '
    ensures FoldChar(FoldChar(c)) == FoldChar(c)
  {
  }

  /** `i` is where a word of `s` begins: a non-space character that is first
      or follows a space. */
  predicate WordStart(s: string, i: nat)
    requires i < |s|
  {
    !IsSpace(s[i]) && (i == 0 || IsSpace(s[i - 1]))
  }

  /** Number of words among the first `n` characters. */
  function WordsBefore(s: string, n: nat): (k: nat)
    requires n <= |s|
  {
    if n == 0 then 0
    else WordsBefore(s, n - 1) + (if WordStart(s, n - 1) then 1 else 0)
  }

  /** `len(s.split())`: the number of maximal runs of non-space characters. */
  function WordCount(s: string): (k: nat)
  {
    WordsBefore(s, |s|)
  }

  /** `str.replace(s, a, b)` for single characters `a` and `b`. */
  function ReplaceChar(s: string, a: char, b: char): (r: string)
    ensures |r| == |s|
    ensures forall i :: 0 <= i < |s| ==> r[i] == (if s[i] == a then b else s[i])
    ensures a != b ==> a !in r
  {
    seq(|s|, i requires 0 <= i < |s| => if s[i] == a then b else s[i])
  }

  /** Folding twice is folding once. */
  lemma FoldStrIdempotent(s: string)
    ensures FoldStr(FoldStr(s)) == FoldStr(s)
  {
    var f := FoldStr(s);
    assert forall i :: 0 <= i < |f| ==> FoldStr(f)[i] == f[i];
  }

  /** Replacing `a` by a character `b` absent from `s` can be undone. */
  lemma ReplaceCharRoundTrip(s: string, a: char, b: char)
    requires b !in s
    ensures ReplaceChar(ReplaceChar(s, a, b), b, a) == s
  {
    var r := ReplaceChar(ReplaceChar(s, a, b), b, a);
    forall i | 0 <= i < |s| ensures r[i] == s[i] {
      assert s[i] != b;
    }
  }

  /** The unjoin step applied to every extracted token: underscores become
      spaces again. */
  function Unjoin(s: string): (r: string)
    ensures |r| == |s|
    ensures '_' !in r
  {
    ReplaceChar(s, '_', ' ')
  }

  /** Python's `sub in s` on strings: plain containment, no word boundaries. */
  predicate Contains(s: string, sub: string)
  {
    exists i :: 0 <= i <= |s| - |sub| && OccursAt(s, sub, i)
  }

  predicate OccursAt(s: string, sub: string, i: nat)
    requires i + |sub| <= |s|
  {
    s[i..i + |sub|] == sub
  }
}

=== FILE: word_sub.dfy ===
/**
 The rewrite step of the lexical pass: `re.sub(r"\bT\b", R, s, flags=re.IGNORECASE)`
 for a title `T` free of regular-expression metacharacters, so that the
 pattern is the literal `T` between two word boundaries and `R` is inserted
 verbatim. The search runs left to right; after a hit at `p` it resumes at
 `p + |T|`, so occurrences never overlap. Boundaries and case-insensitive
 equality are always judged against the input string, never the output.
 */
module WordSub {
  import opened Text

  /** `\b` at offset `k` (0 <= k <= |s|): exactly one of the characters on
      either side of `k` is a word character, the outside of the string
      counting as a non-word character. */
  predicate Boundary(s: string, k: nat)
    requires k <= |s|
  {
    (k > 0 && IsWordChar(s[k - 1])) != (k < |s| && IsWordChar(s[k]))
  }

  /** The pattern `\bT\b` with `IGNORECASE` matches `s` at offset `p`. */
  predicate MatchAt(pat: string, s: string, p: nat)
  {
    && p + |pat| <= |s|
    && Boundary(s, p)
    && EqualIgnoringCase(s, p, pat)
    && Boundary(s, p + |pat|)
  }

  /** `s[p..p + |pat|]` and `pat` agree character by character up to case. */
  predicate EqualIgnoringCase(s: string, p: nat, pat: string)
    requires p + |pat| <= |s|
  {
    forall k :: 0 <= k < |pat| ==> FoldChar(s[p + k]) == FoldChar(pat[k])
  }

  /** The output produced from offset `i` of `s` onwards. */
  function SubFrom(pat: string, repl: string, s: string, i: nat): (r: string)
    requires 0 < |pat| && i <= |s|
    decreases |s| - i
  {
    if i == |s| then []
    else if MatchAt(pat, s, i) then repl + SubFrom(pat, repl, s, i + |pat|)
    else [s[i]] + SubFrom(pat, repl, s, i + 1)
  }

  function Sub(pat: string, repl: string, s: string): (r: string)
    requires 0 < |pat|
  {
    SubFrom(pat, repl, s, 0)
  }

  /** Position `j` of `s` lies inside a word-bounded, case-insensitive
      occurrence of `pat`, and `c` is the replacement's character there. */
  ghost predicate RewrittenAt(pat: string, repl: string, s: string, j: nat, c: char)
    requires |repl| == |pat|
  {
    exists p: nat :: p <= j < p + |pat| && MatchAt(pat, s, p) && c == repl[j - p]
  }

  /** A rewritten character is the replacement's character at some offset
      `k` of an occurrence, and the input character there equals the title's
      character at `k` up to case. */
  lemma RewrittenAtOffset(pat: string, repl: string, s: string, j: nat, c: char) returns (k: nat)
    requires |repl| == |pat| && j < |s|
    requires RewrittenAt(pat, repl, s, j, c)
    ensures k < |pat| && c == repl[k] && FoldChar(s[j]) == FoldChar(pat[k])
  {
    var p: nat :| p <= j < p + |pat| && MatchAt(pat, s, p) && c == repl[j - p];
    k := j - p;
    assert FoldChar(s[p + k]) == FoldChar(pat[k]);
  }

  /** With no occurrence to replace, the text is returned unchanged. */
  lemma {:induction false} SubWithoutMatch(pat: string, repl: string, s: string, i: nat)
    requires 0 < |pat| && i <= |s|
    requires forall p: nat :: i <= p ==> !MatchAt(pat, s, p)
    ensures SubFrom(pat, repl, s, i) == s[i..]
    decreases |s| - i
  {
    if i < |s| {
      SubWithoutMatch(pat, repl, s, i + 1);
      assert s[i..] == [s[i]] + s[i + 1..];
    }
  }

  /** With a replacement as long as the title (the only case the lexical pass
      produces) the output is as long as the input, and every character either
      is the input's own or lies inside a word-bounded case-insensitive
      occurrence of the title and is the replacement's character there. */
  lemma {:induction false} SubOnlyRewritesOccurrences(pat: string, repl: string, s: string, i: nat)
    requires 0 < |pat| == |repl| && i <= |s|
    ensures |SubFrom(pat, repl, s, i)| == |s| - i
    ensures forall j :: i <= j < |s| ==>
              var c := SubFrom(pat, repl, s, i)[j - i];
              c == s[j] || RewrittenAt(pat, repl, s, j, c)
    decreases |s| - i
  {
    if i < |s| {
      if MatchAt(pat, s, i) {
        SubOnlyRewritesOccurrences(pat, repl, s, i + |pat|);
        ReplacedStep(pat, repl, s, i, SubFrom(pat, repl, s, i + |pat|));
      } else {
        SubOnlyRewritesOccurrences(pat, repl, s, i + 1);
        CopiedStep(pat, repl, s, i, SubFrom(pat, repl, s, i + 1));
      }
    }
  }

  /** The whole output of a same-length rewrite is faithful to its input. */
  lemma SubIsFaithful(pat: string, repl: string, s: string)
    requires 0 < |pat| == |repl|
    ensures OnlyRewrites(pat, repl, s, 0, Sub(pat, repl, s))
  {
    SubOnlyRewritesOccurrences(pat, repl, s, 0);
  }

  /** `r` is a faithful output for `s` from offset `i` on: each character is
      the input's own or a rewritten one. */
  ghost predicate OnlyRewrites(pat: string, repl: string, s: string, i: nat, r: string)
    requires |repl| == |pat|
  {
    && i + |r| == |s|
    && forall j :: i <= j < |s| ==> r[j - i] == s[j] || RewrittenAt(pat, repl, s, j, r[j - i])
  }

  /** Writing the replacement over an occurrence at `i` keeps the output
      faithful. */
  lemma ReplacedStep(pat: string, repl: string, s: string, i: nat, rest: string)
    requires 0 < |pat| == |repl| && MatchAt(pat, s, i)
    requires OnlyRewrites(pat, repl, s, i + |pat|, rest)
    ensures OnlyRewrites(pat, repl, s, i, repl + rest)
  {
    var r := repl + rest;
    var n := |pat|;
    forall j | i <= j < |s|
      ensures r[j - i] == s[j] || RewrittenAt(pat, repl, s, j, r[j - i])
    {
      if j < i + n {
        assert r[j - i] == repl[j - i];
        assert RewrittenAt(pat, repl, s, j, r[j - i]);
      } else {
        assert r[j - i] == rest[j - (i + n)];
      }
    }
  }

  /** Copying the character at `i` keeps the output faithful. */
  lemma CopiedStep(pat: string, repl: string, s: string, i: nat, rest: string)
    requires |repl| == |pat| && i < |s|
    requires OnlyRewrites(pat, repl, s, i + 1, rest)
    ensures OnlyRewrites(pat, repl, s, i, [s[i]] + rest)
  {
    var r := [s[i]] + rest;
    forall j | i < j < |s|
      ensures r[j - i] == s[j] || RewrittenAt(pat, repl, s, j, r[j - i])
    {
      assert r[j - i] == rest[j - (i + 1)];
    }
  }

  /** An occurrence that no earlier occurrence overlaps is replaced: the scan
      cannot jump over it. */
  lemma {:induction false} SubRewritesIsolatedOccurrence(pat: string, repl: string, s: string, i: nat, p: nat)
    requires 0 < |pat| == |repl| && i <= p
    requires MatchAt(pat, s, p)
    requires forall q: nat :: p < q + |pat| && q < p ==> !MatchAt(pat, s, q)
    ensures |SubFrom(pat, repl, s, i)| == |s| - i
    ensures SubFrom(pat, repl, s, i)[p - i..p - i + |pat|] == repl
    decreases p - i
  {
    SubFromLength(pat, repl, s, i);
    var n := |pat|;
    if i == p {
      SubAtOccurrence(pat, repl, s, i, p);
    } else {
      var head, next := SubStepBefore(pat, repl, s, i, p);
      SubRewritesIsolatedOccurrence(pat, repl, s, next, p);
      var rest := SubFrom(pat, repl, s, next);
      SliceOfSuffix(head, rest, p - i, p - next, n);
    }
  }

  /** At an occurrence the scan writes the replacement first. */
  lemma SubAtOccurrence(pat: string, repl: string, s: string, i: nat, p: nat)
    requires 0 < |pat| == |repl| && i == p && MatchAt(pat, s, p)
    ensures |SubFrom(pat, repl, s, i)| >= |pat|
    ensures SubFrom(pat, repl, s, i)[p - i..p - i + |pat|] == repl
  {
    var rest := SubFrom(pat, repl, s, p + |pat|);
    assert SubFrom(pat, repl, s, p) == repl + rest;
    SliceOfConcat(repl, rest);
  }

  /** One step of the scan before an isolated occurrence at `p` never
      carries it past `p`. */
  lemma SubStepBefore(pat: string, repl: string, s: string, i: nat, p: nat) returns (head: string, next: nat)
    requires 0 < |pat| == |repl| && i < p
    requires MatchAt(pat, s, p)
    requires forall q: nat :: p < q + |pat| && q < p ==> !MatchAt(pat, s, q)
    ensures i < next <= p && |head| == next - i
    ensures SubFrom(pat, repl, s, i) == head + SubFrom(pat, repl, s, next)
  {
    if MatchAt(pat, s, i) {
      head, next := repl, i + |pat|;
    } else {
      head, next := [s[i]], i + 1;
    }
  }

  /** A replacement made of word characters around an underscore, written
      over an isolated occurrence, leaves such a run at that place. */
  lemma IsolatedWordRun(pat: string, repl: string, s: string, p: nat, u: nat)
    requires 0 < |pat| == |repl|
    requires MatchAt(pat, s, p)
    requires forall q: nat :: p < q + |pat| && q < p ==> !MatchAt(pat, s, q)
    requires u < |repl| && repl[u] == '_'
    requires forall j :: 0 <= j < |repl| ==> IsWordChar(repl[j])
    ensures |Sub(pat, repl, s)| == |s| && p + |pat| <= |s|
    ensures Sub(pat, repl, s)[p..p + |pat|] == repl
    ensures Sub(pat, repl, s)[p + u] == '_'
    ensures forall k :: p <= k < p + |pat| ==> IsWordChar(Sub(pat, repl, s)[k])
  {
    SubRewritesIsolatedOccurrence(pat, repl, s, 0, p);
    WordRunOfSlice(Sub(pat, repl, s), p, repl, u);
  }

  lemma WordRunOfSlice(s: string, p: nat, w: string, u: nat)
    requires p + |w| <= |s| && s[p..p + |w|] == w
    requires u < |w| && w[u] == '_'
    requires forall j :: 0 <= j < |w| ==> IsWordChar(w[j])
    ensures s[p + u] == '_'
    ensures forall k :: p <= k < p + |w| ==> IsWordChar(s[k])
  {
    assert s[p + u] == s[p..p + |w|][u];
    forall k | p <= k < p + |w| ensures IsWordChar(s[k]) {
      assert s[k] == s[p..p + |w|][k - p];
    }
  }

  /** The first part of a concatenation is its prefix. */
  lemma SliceOfConcat(x: string, y: string)
    ensures (x + y)[..|x|] == x
  {
  }

  /** A slice lying inside the second part of a concatenation is a slice of
      that part, `|x|` positions earlier. */
  lemma SliceOfSuffix(x: string, y: string, lo: nat, k: nat, n: nat)
    requires lo == |x| + k && k + n <= |y|
    ensures (x + y)[lo..lo + n] == y[k..k + n]
  {
  }

  /** A replacement as long as the title keeps the length of the text. */
  lemma {:induction false} SubFromLength(pat: string, repl: string, s: string, i: nat)
    requires 0 < |pat| == |repl| && i <= |s|
    ensures |SubFrom(pat, repl, s, i)| == |s| - i
    decreases |s| - i
  {
    if i < |s| {
      if MatchAt(pat, s, i) {
        SubFromLength(pat, repl, s, i + |pat|);
      } else {
        SubFromLength(pat, repl, s, i + 1);
      }
    }
  }

  /** No occurrence begins or ends strictly inside a run of word characters,
      because `\b` fails between two word characters. */
  lemma NoMatchSplitsAWord(pat: string, s: string, p: nat)
    requires p + |pat| <= |s|
    ensures 0 < p < |s| && IsWordChar(s[p - 1]) && IsWordChar(s[p]) ==> !MatchAt(pat, s, p)
    ensures 0 < p + |pat| < |s| && IsWordChar(s[p + |pat| - 1]) && IsWordChar(s[p + |pat|])
            ==> !MatchAt(pat, s, p)
  {
  }

  /** A span of word characters holding an underscore (a title joined by an
      earlier rewrite) is left intact by a title without underscores: an
      occurrence cannot start or end inside the span, and it cannot cover the
      whole span because the underscore would have to match a character of
      the title. */
  lemma JoinedSpanUntouched(pat: string, repl: string, s: string, a: nat, b: nat, u: nat)
    requires 0 < |pat| == |repl| && '_' !in pat
    requires a <= u < b <= |s| && s[u] == '_'
    requires forall k :: a <= k < b ==> IsWordChar(s[k])
    ensures |Sub(pat, repl, s)| == |s|
    ensures Sub(pat, repl, s)[a..b] == s[a..b]
  {
    SubOnlyRewritesOccurrences(pat, repl, s, 0);
    var r := Sub(pat, repl, s);
    forall p: nat | MatchAt(pat, s, p)
      ensures p + |pat| <= a || b <= p
    {
      NoOccurrenceOverlapsSpan(pat, s, a, b, u, p);
    }
    forall j | a <= j < b
      ensures r[j] == s[j]
    {
      assert !RewrittenAt(pat, repl, s, j, r[j]);
    }
  }

  lemma NoOccurrenceOverlapsSpan(pat: string, s: string, a: nat, b: nat, u: nat, p: nat)
    requires 0 < |pat| && '_' !in pat
    requires a <= u < b <= |s| && s[u] == '_'
    requires forall k :: a <= k < b ==> IsWordChar(s[k])
    requires MatchAt(pat, s, p)
    ensures p + |pat| <= a || b <= p
  {
    if p <= a && b <= p + |pat| {
      UnderscoreMatchesUnderscore(pat, s, p, u);
    }
  }

  /** Case-insensitive equality maps an underscore only to an underscore. */
  lemma UnderscoreMatchesUnderscore(pat: string, s: string, p: nat, u: nat)
    requires p <= u < p + |pat| <= |s| && s[u] == '_'
    requires EqualIgnoringCase(s, p, pat)
    ensures pat[u - p] == '_'
  {
    assert FoldChar(s[p + (u - p)]) == FoldChar(pat[u - p]);
    FoldKeepsWordChars(pat[u - p]);
  }
}
